=== FILE: README.md ===
# nexmigrate core in Dafny

`nexmigrate.cs` is a Windows console tool with two screens. One lists the
installed programs it finds in the registry's uninstall keys, lets the user
tick some, and runs their uninstall commands. The other offers a fixed
catalog of winget packages and installs the ticked ones. The catalog includes
a `baseline` entry that stands for a group of three packages.

This project models the pure rules inside those screens, and proves what they
guarantee:

- **Command splitting** (`Command`). `SplitCommand` trims the stored
  uninstall command and splits it into an executable and an argument
  string. The quoted form and the split at the first space are both
  modelled.
- **The Windows Installer fix-up** (`Command`). When the executable is
  `msiexec` or `msiexec.exe` in any letter case, `/X` becomes `/x`. The
  arguments ` /qn /norestart` are appended unless `/qn` is already there in
  any case.
- **The removal loop** (`Actions`). A program with a blank command is
  skipped. Every other program is launched. Each exit code is classified.
- **The install list** (`Catalog`). `baseline` expands to its group
  members. The list is de-duplicated by case-insensitive package id, keeping
  the first entry of each id. Each package gets its winget argument string.
- **The installed-program list** (`Inventory`). Entries with a blank name
  are dropped. The rest are de-duplicated by case-insensitive display name,
  keeping the first. The result is sorted by case-insensitive name.
- **The check-box grid** (`Grid`). Each cell has the width of the longest
  label plus four. Item `i` sits at row `i / columns`, column `i % columns`.
  The content area is sized to fit. The selection is the checked items, in
  order.

Supporting modules:

- `Text` models the .NET string operations the code relies on:
  `char.IsWhiteSpace`, `Trim`, `IndexOf`, ordinal `Contains` and `Replace`,
  and the `OrdinalIgnoreCase` comparer.
- `Distinct` models `GroupBy(..).Select(g => g.First())`. It gives a
  filter and a reference definition, and proves them equal.
- `Sorting` models `OrderBy` as an insertion sort. The tool sorts only lists without repeated keys, where the sorted order is unique, so the sort's stability is not stated.
- `Options` holds an `Option` type.
- `Sequences` holds three facts about concatenation and prefixes that the order proofs share.

Two details of the code are easy to miss:

- A vendor uninstaller's arguments pass through unchanged, because the
  uninstaller is not `msiexec`. This holds even when they contain `/X`: the fix-up applies only
  to the Windows Installer (nexmigrate.cs:88-94). `Command.QuotedVendorUninstaller`
  proves this for `"C:\Foo\u.exe" /X{GUID}`.
- For an unquoted command, the arguments begin after the whole run of
  spaces that follows the executable. This is how
  `Split(' ', 2, RemoveEmptyEntries)` behaves (nexmigrate.cs:327-328). It
  does not begin after a single space.

## Model

| member | source | states |
|---|---|---|
| Text.IsWhiteSpace | nexmigrate.cs:376 | exactly the characters .NET treats as white space: U+0020, U+0009 to U+000D, U+0085, U+00A0, U+1680, U+2000 to U+200A, U+2028, U+2029, U+202F, U+205F and U+3000|
| Text.IsBlank | nexmigrate.cs:81 | a string is blank when every one of its characters is white space, the empty string included; the same test drops unnamed entries at line 376; a missing value is handled before the test, by `Inventory.IsListed` and `Inventory.ToApp` |
| Text.Trim | nexmigrate.cs:316 | the trimmed command is empty exactly when the command is blank, and otherwise starts and ends with a non-white-space character |
| Text.TrimSpan | nexmigrate.cs:316 | the trimmed string is a contiguous part of the input, and only white space lies before and after it |
| Text.TrimIdempotent | nexmigrate.cs:316 | trimming twice is trimming once |
| Text.IndexOf | nexmigrate.cs:319 | the result is the first position at or after the start that holds the character, or -1 when no such position exists |
| Text.Fold | nexmigrate.cs:382-384 | the key the ignore-case comparer compares, here and at line 147: the same length as the input, with each ASCII lower-case letter upper-cased and every other character kept |
| Text.EqualsIgnoreCase | nexmigrate.cs:88-89 | two strings are equal ignoring case when their upper-cased forms are the same string |
| Text.ContainsIgnoreCase | nexmigrate.cs:92 | the pattern occurs ignoring case when its upper-cased form occurs at some position of the upper-cased text |
| Text.LessOrEqualIgnoreCase | nexmigrate.cs:384 | the sort order of display names: the ordinal order on the upper-cased forms |
| Text.LexLeTotal | nexmigrate.cs:384 | the ordinal order compares any two strings |
| Text.LexLeTransitive | nexmigrate.cs:384 | the ordinal order is transitive |
| Text.LexLeAntisymmetric | nexmigrate.cs:384 | two strings ordered both ways are equal |
| Command.SplitCommand | nexmigrate.cs:314-329 | for a trimmed command with a leading quote and a closing quote, the result is the quoted reading; for any other command, including an unclosed quote, it is the split at the first space |
| Command.SplitQuoted | nexmigrate.cs:318-325 | the executable is the quote-free text between the opening quote and the next quote; the arguments are the trimmed text after it, or empty |
| Command.SplitAtSpace | nexmigrate.cs:327-328 | the executable is the non-empty, space-free text before the first space; the arguments follow the run of spaces; with no space, the arguments are empty and the executable is the whole command |
| Command.QuotedIffClosingQuote | nexmigrate.cs:317-320 | the code's test (leading quote and `IndexOf('"', 1) > 0`) holds exactly for commands of the quoted form |
| Command.QuotedSplitDetermined | nexmigrate.cs:318-325 | exactly one executable/argument pair satisfies the quoted reading |
| Command.PlainSplitDetermined | nexmigrate.cs:327-328 | exactly one executable/argument pair satisfies the split at the first space |
| Command.QuotedRoundTrip | nexmigrate.cs:314-325 | splitting `"exe" args` gives back `exe` and `args` for every quote-free `exe` and trimmed `args` |
| Command.PlainRoundTrip | nexmigrate.cs:314-328 | splitting `exe args` gives back `exe` and `args` for every space-free `exe` and trimmed `args` |
| Command.LowerRemovalFlag | nexmigrate.cs:91 | the length is kept; a character becomes `x` exactly when it is an `X` right after a `/`, and every other character is kept; no `/X` is left |
| Command.IsMsiexec | nexmigrate.cs:88-89 | the executable is `msiexec.exe` or `msiexec`, compared ordinally ignoring case |
| Command.NormalizeArgs | nexmigrate.cs:87-94 | for msiexec the result has no `/X` and contains `/qn` ignoring case; ` /qn /norestart` is appended exactly when `/qn` was absent; other executables keep their arguments |
| Command.NormalizeArgsIdempotent | nexmigrate.cs:87-94 | normalising the arguments twice gives the same result as normalising them once |
| Command.SilentFlagsSuffix | nexmigrate.cs:92-93 | appending ` /qn /norestart` brings in `/qn` and brings in no `/X` |
| Command.QuotedVendorUninstaller | nexmigrate.cs:87-94 | `"C:\Foo\u.exe" /X{GUID}` splits into `C:\Foo\u.exe` and `/X{GUID}`, and the arguments stay as they are |
| Command.MsiexecUninstall | nexmigrate.cs:87-94 | `MsiExec.exe /X{GUID}` is launched with `/x{GUID} /qn /norestart` |
| Distinct.DistinctBy | nexmigrate.cs:381-383 | keeps the first element of each case-insensitive key, in order of first appearance (equal to the reference filter); no two kept keys are equal; every key of the input is kept |
| Distinct.PassIsFirstOccurrences | nexmigrate.cs:381-383 | the one-pass grouping with a set of seen keys computes the reference filter |
| Distinct.DistinctByNoDuplicates | nexmigrate.cs:381-383 | a list with no repeated key comes back unchanged |
| Distinct.DistinctBySeen | nexmigrate.cs:146-149 | appending an element whose key was already seen leaves the de-duplicated list unchanged |
| Distinct.FirstOccurrencesOnlyFirst | nexmigrate.cs:381-383 | every element kept is the first of its key group |
| Distinct.SameKeySameElement | nexmigrate.cs:146-149 | in a list without repeated keys, a key identifies its element |
| Sorting.Insert | nexmigrate.cs:384 | inserting into a sorted list keeps it sorted and adds exactly the new element |
| Sorting.SortBy | nexmigrate.cs:384 | the result is sorted by case-insensitive key and is a permutation of the input |
| Sorting.SortByKeepsDistinct | nexmigrate.cs:381-384 | sorting a list without repeated keys yields a list without repeated keys |
| Sorting.SortedUnique | nexmigrate.cs:384 | two sorted permutations of a list without repeated keys are equal |
| Sorting.SortBySorted | nexmigrate.cs:384 | an already sorted list without repeated keys is left unchanged |
| Catalog.InstallOptions | nexmigrate.cs:196-219 | the 15 catalog entries in source order: `baseline` first, then its three group members, then the eleven ungrouped packages |
| Catalog.IsBaselineMember | nexmigrate.cs:139 | the id is not `baseline` and the group is `baseline`, both compared ordinally |
| Catalog.BaselineMembers | nexmigrate.cs:139 | an entry is kept exactly when it is in the catalog, its id is not `baseline`, and its group is `baseline` |
| Catalog.BaselineMembersAppend | nexmigrate.cs:139 | the filter keeps catalog order and multiplicity: filtering a concatenation concatenates the filtered parts |
| Catalog.BaselineMembersSingle | nexmigrate.cs:139 | a single entry survives exactly when it is a baseline member (with the concatenation lemma, this fixes the filter completely) |
| Catalog.Expand | nexmigrate.cs:133-144 | the expansion holds no `baseline` id; an entry is in it exactly when it was selected and is not `baseline`, or when `baseline` was selected and the entry is a baseline member |
| Catalog.ExpandAppend | nexmigrate.cs:134-144 | the expansion keeps the selection order: expanding a concatenation concatenates the expanded parts |
| Catalog.ExpandSingle | nexmigrate.cs:136-143 | `baseline` becomes the baseline members in catalog order, in its place; any other entry stands for itself |
| Catalog.InstallList | nexmigrate.cs:133-149 | no `baseline` id; no two ids equal ignoring case; first occurrences in order; every selected package's id and, with `baseline`, every member's id is represented |
| Catalog.InstallListExactly | nexmigrate.cs:133-149 | when the catalog's ids are distinct and the selection comes from it, the list holds exactly the selected packages plus the members selected through `baseline`, with no element twice |
| Catalog.CatalogIdsDistinct | nexmigrate.cs:201-216 | no two catalog ids are equal ignoring case |
| Catalog.CatalogBaselineGroup | nexmigrate.cs:201-204 | the baseline members of the catalog are 7-Zip, VLC and Chrome, in that order |
| Catalog.BaselineWithDuplicate | nexmigrate.cs:133-149 | selecting `baseline` and 7-Zip installs 7-Zip, VLC and Chrome, in that order, each once |
| Catalog.InstallArgs | nexmigrate.cs:171 | the argument string has the fixed prefix and suffix around the id, and the id can be read back from it |
| Catalog.InstallArgsInjective | nexmigrate.cs:171 | different ids give different argument strings |
| Catalog.ParseInstallArgsInverse | nexmigrate.cs:171 | every string the reader accepts is the argument string of the id it reads |
| Inventory.IsListed | nexmigrate.cs:372-376 | the display name value is a string and is not blank |
| Inventory.ToApp | nexmigrate.cs:371-377 | the program takes the registry name; a missing command becomes the empty string |
| Inventory.Candidates | nexmigrate.cs:366-378 | keeps exactly the entries whose name is a non-blank string, converted to programs |
| Inventory.CandidatesAppend | nexmigrate.cs:360-378 | the filter keeps the scan order: filtering a concatenation concatenates the filtered parts |
| Inventory.CandidatesSingle | nexmigrate.cs:371-377 | a single entry yields its program exactly when its name is a non-blank string (with the concatenation lemma, this fixes the filter completely) |
| Inventory.Normalize | nexmigrate.cs:381-385 | no two names equal ignoring case; sorted ignoring case; a permutation of the first occurrences; every name of the input is represented |
| Inventory.InstalledApps | nexmigrate.cs:366-385 | no blank names; no duplicates ignoring case; sorted; every listed registry name is represented, and by its first occurrence |
| Inventory.NormalizeUnique | nexmigrate.cs:381-385 | the list is the only sorted arrangement of the first occurrences |
| Inventory.NormalizeIdempotent | nexmigrate.cs:381-385 | normalising a normalised list changes nothing |
| Inventory.InstalledAppsFirstEntries | nexmigrate.cs:352-385 | a program is listed exactly when it comes from the first listed registry entry of its name in scan order (64-bit machine-wide, per user, 32-bit machine-wide): a name under the 64-bit machine-wide key keeps that command, and between the per-user key and the 32-bit machine-wide key the per-user command wins |
| Grid.MaxLabelLength | nexmigrate.cs:272 | the result is at least every label's length and equal to one of them |
| Grid.CellWidth | nexmigrate.cs:273 | the width is the longest label's length plus four: every label fits with four characters to spare, and one fits exactly so |
| Grid.Rows | nexmigrate.cs:274 | the fewest rows of `columns` cells that hold all items |
| Grid.Place | nexmigrate.cs:280-288 | item `i`'s box starts at column offset `(i % columns) * cellW`, on row `i / columns`, and is `cellW` wide |
| Grid.PlaceInBounds | nexmigrate.cs:280-293 | every cell lies inside the content area `cellW * columns` by `rows` |
| Grid.PlaceInjective | nexmigrate.cs:280-288 | different items get different cells |
| Grid.LayOut | nexmigrate.cs:272-293 | one cell per item, at column `i % columns` and row `i / columns`; all inside the content area and pairwise different |
| Grid.Selection | nexmigrate.cs:307-310 | as many items as boxes checked; every checked item is included and only checked items |
| Grid.SelectionInOrder | nexmigrate.cs:307-310 | the `k`-th selected item is the item at the `k`-th checked position |
| Grid.SelectionExtremes | nexmigrate.cs:307-310 | nothing checked gives an empty list, not a missing one; everything checked gives all items |
| Grid.GridSelect | nexmigrate.cs:272-311 | after laying out the grid, returns exactly the checked items, in their order, as many as there are checked boxes |
| Grid.FourOnThree | nexmigrate.cs:274-288 | four items on three columns take two rows, and the fourth item starts the second row |
| Actions.AppItems | nexmigrate.cs:221-228 | one grid item per program, in order, labelled with its display name and carrying the program itself |
| Actions.OptionItems | nexmigrate.cs:230-237 | one grid item per catalog entry, in order, labelled with its name and carrying the entry itself |
| Actions.Classify | nexmigrate.cs:106-116 | exit code 0 is success; any other code may have failed; an exception is an error with its message |
| Actions.UninstallStep | nexmigrate.cs:81-94 | nothing is launched exactly when the command is blank; otherwise the split command with the Windows Installer fix-up, so an msiexec launch has no `/X` and has `/qn` |
| Actions.UninstallEvent | nexmigrate.cs:79-116 | a program is skipped exactly when its command is blank; otherwise it is launched and the outcome is classified |
| Actions.RunUninstalls | nexmigrate.cs:77-117 | one event per selected program, in order, so a skip, a non-zero exit code or a failed launch never stops the rest |
| Actions.RemovalScreen | nexmigrate.cs:42-118 | no apps found exactly when the list is empty; nothing selected exactly when no box is checked; cancelled exactly when the user declines; otherwise the uninstall run over the checked programs |
| Actions.RemovalReportsChecked | nexmigrate.cs:54-79 | every reported program is one the user checked |
| Actions.UninstallsOfChecked | nexmigrate.cs:77-79 | each event of the uninstall run over the checked programs names a checked program |
| Actions.NoAppsIffNoneListed | nexmigrate.cs:47-52 | the "no apps found" case occurs exactly when no registry entry has a non-blank name |
| Actions.NothingSelectedIffNoneChecked | nexmigrate.cs:55-59 | the selection is empty exactly when no box is checked |
| Actions.InstallStep | nexmigrate.cs:171-178 | the install runs `winget`, and the package id can be read back from its arguments |
| Actions.RunInstalls | nexmigrate.cs:168-193 | one launch per list entry, in order, each with winget and the entry's arguments |
| Actions.InstallScreen | nexmigrate.cs:120-194 | nothing selected exactly when no box is checked; cancelled exactly when the user declines; otherwise the install run over the expanded, de-duplicated list |
| Actions.InstallsRunWinget | nexmigrate.cs:166-179 | every install launch runs winget, and none installs `baseline` |
| Actions.InstallsDistinct | nexmigrate.cs:146-171 | no two install launches name package ids that are equal ignoring case |
| Actions.RunInstallsDistinct | nexmigrate.cs:168-179 | a list with no two ids equal ignoring case gives launches with no two ids equal ignoring case |

## Left out

- Registry enumeration is left out because it is operating-system I/O. The model starts from the (name, command) values read from the three uninstall keys, concatenated in the order the keys are scanned.
- The Terminal.Gui window, its event loop and widgets are left out. The boxes' final states are a parameter `ticked`, read as the state of box `i` for every position `i`.
- The Spectre.Console menus, tables and prompts are left out, and so is the main-menu loop. The confirmation answer is a parameter. The menu offers choice strings that differ from the ones it compares against (nexmigrate.cs:25-34), so no screen can be reached from it. This is a user-interface defect, and the model does not include the menu.
- Process start, elevation and waiting are foreign calls. Each launch's outcome is a parameter `launch` of the executable and argument string, so two identical launches in one run get the same outcome.
- Text.Fold: `OrdinalIgnoreCase` upper-cases all of Unicode. The model upper-cases only ASCII letters.
- Grid.MaxLabelLength: `Label.Length` counts UTF-16 code units. The model counts characters.
- Grid.Rows: `Math.Ceiling` over `double` is replaced by the integer ceiling `(count + columns - 1) / columns`. The two agree for every count a list can hold.
- Text.Replace: the contract states only that a string without the pattern comes back unchanged. What the one replacement in the code does, `/X` to `/x`, is stated in full by `Command.LowerRemovalFlag`.
- Command.SplitCommand: the code's leading-quote test is a culture-sensitive comparison, which ignores characters such as U+00AD and U+FEFF that trimming keeps. The model tests the first character. For a trimmed command `\u00AD"a" b`, the code takes the quoted reading (executable empty, arguments `a" b`). The model splits at the space (executable `\u00AD"a"`, arguments `b`).
- Sorting.SortBy: the ordinal comparer orders UTF-16 code units, while the model compares whole characters (code points). The two differ only when a character above U+FFFF is compared with one in U+E000..U+FFFF. For example, a name starting with U+1F600 sorts before one starting with U+FFFD in the code, and after it in the model.
- Actions.RunUninstalls: the console output is left out, and with it the markup parser's exception. The code passes display names, commands and exception messages into Spectre markup outside any `try` (nexmigrate.cs:79, 96, 115). A name, command or message containing `[` or `]` makes the parser throw, and nothing catches it, so the remaining programs are not processed. A message can contain brackets when, for example, a failed launch names a path with brackets. The model assumes the output never fails, so `Actions.RunUninstalls` describes a complete run.
- Actions.RemovalScreen: the confirmation table adds each display name as markup (nexmigrate.cs:66). A name containing `[` or `]` makes the parser throw there, before the confirmation, and the screen ends without running anything. The model assumes the table is always shown.
- Actions.RunInstalls: the catch block writes the exception message into Spectre markup (nexmigrate.cs:191). A message containing `[` or `]` throws outside any `try`, and the remaining entries are not installed. The model assumes the output never fails, so `Actions.RunInstalls` describes a complete run.
- Command.SplitCommand requires a non-blank command. On a blank command the code would index an empty array, and its only caller skips blank commands first.
- Grid.MaxLabelLength requires a non-empty list because `Max` throws on an empty one. The removal screen returns before the grid when no apps were found, and the catalog is never empty.

=== FILE: actions.dfy ===
/** The two screens of nexmigrate.cs as pure flows: which programs are
    launched with which arguments, in which order, and how each launch is
    reported. The user's answers (the boxes checked, the confirmation) and
    the outcome of starting a process are parameters. */
module Actions {
  import opened Options
  import opened Text
  import opened Distinct
  import opened Command
  import opened Catalog
  import opened Inventory
  import opened Grid

  /** What starting a program yields: its exit code once it has finished,
      or the message of the exception that prevented it. */
  datatype LaunchResult = Exited(code: int) | LaunchFailed(message: string)

  /** What the screen reports for one launch. */
  datatype Outcome = Succeeded | MayHaveFailed(code: int) | Error(message: string)

  /** One line of the run: a program skipped for lack of a command, or
      launched with the outcome shown. */
  datatype Event = Skipped(name: string) | Launched(name: string, invocation: CommandLine, outcome: Outcome)

  /** What a screen ends with. */
  datatype ScreenResult = NoAppsFound | NoneSelected | Cancelled | Finished(events: seq<Event>)

  /** Exit code 0 is success, any other code a possible failure, an
      exception an error with its message. */
  function Classify(r: LaunchResult): (o: Outcome)
    ensures o == Succeeded <==> r == Exited(0)
    ensures o.MayHaveFailed? <==> r.Exited? && r.code != 0
    ensures o.MayHaveFailed? ==> o.code == r.code
    ensures o.Error? <==> r.LaunchFailed?
    ensures o.Error? ==> o.message == r.message
  {
    match r
    case Exited(code) => if code == 0 then Succeeded else MayHaveFailed(code)
    case LaunchFailed(message) => Error(message)
  }

  // ---------------------------------------------------------------------
  // Removal

  /** The launch for removing `app`: none when its uninstall command is
      blank; otherwise the command split into executable and arguments, with
      the Windows Installer fix-up applied to the arguments. */
  function UninstallStep(app: AppInfo): (s: Option<CommandLine>)
    ensures s.None? <==> IsBlank(app.uninstallString)
    ensures s.Some? ==> var c := SplitCommand(app.uninstallString);
      s.value.exe == c.exe && s.value.args == NormalizeArgs(c.exe, c.args)
    ensures s.Some? && IsMsiexec(s.value.exe) ==>
      !Contains(s.value.args, RemovalFlag) && ContainsIgnoreCase(s.value.args, QuietFlag)
    ensures s.Some? && !IsMsiexec(s.value.exe) ==> s.value.args == SplitCommand(app.uninstallString).args
  {
    if IsBlank(app.uninstallString) then None
    else
      var c := SplitCommand(app.uninstallString);
      Some(CommandLine(c.exe, NormalizeArgs(c.exe, c.args)))
  }

  /** The event for one selected program: skipped when it has no command,
      otherwise launched with the outcome classified. */
  function UninstallEvent(app: AppInfo, launch: CommandLine -> LaunchResult): (e: Event)
    ensures e.name == app.displayName
    ensures e.Skipped? <==> IsBlank(app.uninstallString)
    ensures e.Launched? ==> UninstallStep(app) == Some(e.invocation) && e.outcome == Classify(launch(e.invocation))
  {
    match UninstallStep(app)
    case None => Skipped(app.displayName)
    case Some(inv) => Launched(app.displayName, inv, Classify(launch(inv)))
  }

  /** The uninstall loop: one event per selected program, in order, so a
      skipped or failed program never stops the ones after it. */
  function RunUninstalls(apps: seq<AppInfo>, launch: CommandLine -> LaunchResult): (r: seq<Event>)
    ensures |r| == |apps|
    ensures forall i :: 0 <= i < |apps| ==> r[i] == UninstallEvent(apps[i], launch)
    decreases |apps|
  {
    if apps == [] then []
    else
      var rest := RunUninstalls(apps[1..], launch);
      assert forall i :: 1 <= i < |apps| ==> apps[i] == apps[1..][i - 1];
      [UninstallEvent(apps[0], launch)] + rest
  }

  /** The grid items of the removal picker: each program labelled with its
      display name. */
  function AppItems(apps: seq<AppInfo>): (items: seq<Item<AppInfo>>)
    ensures |items| == |apps|
    ensures forall i :: 0 <= i < |apps| ==> items[i] == Item(apps[i].displayName, apps[i])
  {
    seq(|apps|, i requires 0 <= i < |apps| => Item(apps[i].displayName, apps[i]))
  }

  /** Some box is checked. */
  predicate AnyChecked(checked: seq<bool>) {
    exists i :: 0 <= i < |checked| && checked[i]
  }

  /** The states of the first `n` check boxes when the user confirms the
      grid; `ticked(i)` is the state of the box at position `i`. */
  function Boxes(ticked: nat -> bool, n: nat): (checked: seq<bool>)
    ensures |checked| == n
    ensures forall i :: 0 <= i < n ==> checked[i] == ticked(i)
  {
    seq(n, i requires 0 <= i < n => ticked(i))
  }

  /** The removal screen: the installed programs are listed, the checked
      ones are confirmed and then removed one after another. */
  function RemovalScreen(entries: seq<RegistryEntry>, ticked: nat -> bool, confirm: bool,
                         launch: CommandLine -> LaunchResult): (r: ScreenResult)
    ensures var apps := InstalledApps(entries);
      && (r == NoAppsFound <==> apps == [])
      && (r == NoneSelected <==> apps != [] && !AnyChecked(Boxes(ticked, |apps|)))
      && (r == Cancelled <==> apps != [] && AnyChecked(Boxes(ticked, |apps|)) && !confirm)
      && (r.Finished? ==> confirm)
      && (r.Finished? ==> r.events == RunUninstalls(Selection(AppItems(apps), Boxes(ticked, |apps|)), launch))
  {
    var apps := InstalledApps(entries);
    var checked := Boxes(ticked, |apps|);
    if apps == [] then NoAppsFound
    else
      var selected := Selection(AppItems(apps), checked);
      NothingSelectedIffNoneChecked(AppItems(apps), checked);
      if selected == [] then NoneSelected
      else if !confirm then Cancelled
      else Finished(RunUninstalls(selected, launch))
  }

  /** Every program the removal screen reports on is one it listed and the
      user checked. */
  lemma RemovalReportsChecked(entries: seq<RegistryEntry>, ticked: nat -> bool, confirm: bool,
                              launch: CommandLine -> LaunchResult)
    ensures var r := RemovalScreen(entries, ticked, confirm, launch);
      r.Finished? ==> forall k :: 0 <= k < |r.events| ==>
        exists i :: 0 <= i < |InstalledApps(entries)| && ticked(i) && r.events[k].name == InstalledApps(entries)[i].displayName
  {
    var apps := InstalledApps(entries);
    var r := RemovalScreen(entries, ticked, confirm, launch);
    if r.Finished? {
      UninstallsOfChecked(apps, ticked, launch, r.events);
    }
  }

  /** Every event of the uninstall run over the checked programs names a
      checked program. */
  lemma UninstallsOfChecked(apps: seq<AppInfo>, ticked: nat -> bool, launch: CommandLine -> LaunchResult,
                            events: seq<Event>)
    requires events == RunUninstalls(Selection(AppItems(apps), Boxes(ticked, |apps|)), launch)
    ensures forall k :: 0 <= k < |events| ==>
      exists i :: 0 <= i < |apps| && ticked(i) && events[k].name == apps[i].displayName
  {
    var items := AppItems(apps);
    var checked := Boxes(ticked, |apps|);
    var selected := Selection(items, checked);
    forall k | 0 <= k < |events|
      ensures exists i :: 0 <= i < |apps| && ticked(i) && events[k].name == apps[i].displayName
    {
      assert selected[k] in selected;
      var i :| 0 <= i < |items| && checked[i] && items[i].data == selected[k];
      assert events[k].name == apps[i].displayName;
    }
  }

  /** The installed-program list is empty exactly when no registry entry
      has a usable display name. */
  lemma NoAppsIffNoneListed(entries: seq<RegistryEntry>)
    ensures InstalledApps(entries) == [] <==> forall i :: 0 <= i < |entries| ==> !IsListed(entries[i])
  {
    var apps := InstalledApps(entries);
    var c := Candidates(entries);
    if exists i :: 0 <= i < |entries| && IsListed(entries[i]) {
      var i :| 0 <= i < |entries| && IsListed(entries[i]);
      var k := Fold(entries[i].displayName.value);
      assert k in KeysOf(apps, DisplayName);
      var a :| a in apps && Fold(DisplayName(a)) == k;
    } else {
      assert forall a :: a !in c;
      assert c == [];
      assert forall a :: a !in apps;
    }
  }

  /** Nothing is selected exactly when no box is checked. */
  lemma NothingSelectedIffNoneChecked<T>(items: seq<Item<T>>, checked: seq<bool>)
    requires |checked| == |items|
    ensures Selection(items, checked) == [] <==> !AnyChecked(checked)
  {
    if AnyChecked(checked) {
      var i :| 0 <= i < |checked| && checked[i];
      assert items[i].data in Selection(items, checked);
    }
  }

  // ---------------------------------------------------------------------
  // Installation

  /** The winget launch that installs one catalog entry. */
  function InstallStep(opt: InstallOption): (inv: CommandLine)
    ensures inv.exe == InstallerExe
    ensures ParseInstallArgs(inv.args) == Some(opt.id)
  {
    CommandLine(InstallerExe, InstallArgs(opt.id))
  }

  /** The install loop: every entry of the list is launched, in order, and
      its outcome reported. */
  function RunInstalls(list: seq<InstallOption>, launch: CommandLine -> LaunchResult): (r: seq<Event>)
    ensures |r| == |list|
    ensures forall i :: 0 <= i < |list| ==>
      r[i] == Launched(list[i].name, InstallStep(list[i]), Classify(launch(InstallStep(list[i]))))
    decreases |list|
  {
    if list == [] then []
    else
      var inv := InstallStep(list[0]);
      assert forall i :: 1 <= i < |list| ==> list[i] == list[1..][i - 1];
      [Launched(list[0].name, inv, Classify(launch(inv)))] + RunInstalls(list[1..], launch)
  }

  /** The grid items of the install picker: each entry labelled with its
      name. */
  function OptionItems(options: seq<InstallOption>): (items: seq<Item<InstallOption>>)
    ensures |items| == |options|
    ensures forall i :: 0 <= i < |options| ==> items[i] == Item(options[i].name, options[i])
  {
    seq(|options|, i requires 0 <= i < |options| => Item(options[i].name, options[i]))
  }

  /** The install screen: catalog entries are picked, the meta-option is
      expanded, duplicates are dropped, and after confirmation every
      remaining entry is installed with winget. */
  function InstallScreen(ticked: nat -> bool, confirm: bool, launch: CommandLine -> LaunchResult): (r: ScreenResult)
    ensures var checked := Boxes(ticked, |InstallOptions|);
      && r != NoAppsFound
      && (r == NoneSelected <==> !AnyChecked(checked))
      && (r == Cancelled <==> AnyChecked(checked) && !confirm)
      && (r.Finished? ==> confirm)
      && (r.Finished? ==>
            r.events == RunInstalls(InstallList(Selection(OptionItems(InstallOptions), checked), InstallOptions), launch))
  {
    var checked := Boxes(ticked, |InstallOptions|);
    var selected := Selection(OptionItems(InstallOptions), checked);
    NothingSelectedIffNoneChecked(OptionItems(InstallOptions), checked);
    if selected == [] then NoneSelected
    else if !confirm then Cancelled
    else Finished(RunInstalls(InstallList(selected, InstallOptions), launch))
  }

  /** Every install launch runs winget, and none installs the meta-option. */
  lemma InstallsRunWinget(ticked: nat -> bool, confirm: bool, launch: CommandLine -> LaunchResult)
    ensures var r := InstallScreen(ticked, confirm, launch);
      r.Finished? ==> forall i :: 0 <= i < |r.events| ==>
        r.events[i].Launched? && r.events[i].invocation.exe == InstallerExe
        && ParseInstallArgs(r.events[i].invocation.args) != Some(BaselineId)
  {
    var r := InstallScreen(ticked, confirm, launch);
    if r.Finished? {
      var list := InstallList(Selection(OptionItems(InstallOptions), Boxes(ticked, |InstallOptions|)), InstallOptions);
      forall i | 0 <= i < |r.events|
        ensures r.events[i].Launched? && r.events[i].invocation.exe == InstallerExe
        ensures ParseInstallArgs(r.events[i].invocation.args) != Some(BaselineId)
      {
        assert list[i] in list;
        assert r.events[i].invocation == InstallStep(list[i]);
      }
    }
  }

  /** Whatever is checked, no package is installed twice: no two launches
      install case-insensitively equal package ids. */
  lemma InstallsDistinct(ticked: nat -> bool, confirm: bool, launch: CommandLine -> LaunchResult)
    ensures var r := InstallScreen(ticked, confirm, launch);
      r.Finished? ==> forall i, j :: 0 <= i < j < |r.events| ==>
        !EqualsIgnoreCase(ParseInstallArgs(r.events[i].invocation.args).value,
                          ParseInstallArgs(r.events[j].invocation.args).value)
  {
    var r := InstallScreen(ticked, confirm, launch);
    if r.Finished? {
      var list := InstallList(Selection(OptionItems(InstallOptions), Boxes(ticked, |InstallOptions|)), InstallOptions);
      RunInstallsDistinct(list, launch);
    }
  }

  /** Installs over a list without repeated ids name pairwise different
      packages, ignoring case. */
  lemma RunInstallsDistinct(list: seq<InstallOption>, launch: CommandLine -> LaunchResult)
    requires DistinctKeys(list, OptionId)
    ensures var events := RunInstalls(list, launch);
      forall i, j :: 0 <= i < j < |events| ==>
        !EqualsIgnoreCase(ParseInstallArgs(events[i].invocation.args).value,
                          ParseInstallArgs(events[j].invocation.args).value)
  {
    var events := RunInstalls(list, launch);
    assert forall i :: 0 <= i < |list| ==> ParseInstallArgs(events[i].invocation.args).value == OptionId(list[i]);
  }
}

=== FILE: catalog.dfy ===
/** The install side: the static catalog of winget packages, the expansion
    of the `baseline` meta-option into its group, the de-duplication by
    package id, and the winget argument string for one package
    (nexmigrate.cs `GetInstallOptions` and `ShowAppInstallScreen`). */
module Catalog {
  import opened Options
  import opened Text
  import opened Distinct
  import opened Sequences

  /** One entry of the install catalog: a winget package id, the name shown
      to the user, and an optional group. */
  datatype InstallOption = InstallOption(id: string, name: string, group: Option<string>)

  /** The id of the meta-option, and the group its members carry. */
  const BaselineId: string := "baseline"

  /** The key the install list is de-duplicated by. */
  function OptionId(x: InstallOption): string {
    x.id
  }

  /** The meta-option standing for the baseline group. */
  const BaselineOption: InstallOption := InstallOption("baseline", "Baseline (7zip, VLC, Chrome)", Some("baseline"))

  /** The members of the baseline group. */
  const BaselineGroup: seq<InstallOption> := [
    InstallOption("7zip.7zip", "7-Zip", Some("baseline")),
    InstallOption("VideoLAN.VLC", "VLC media player", Some("baseline")),
    InstallOption("Google.Chrome", "Google Chrome", Some("baseline"))
  ]

  /** The packages outside any group. */
  const Ungrouped: seq<InstallOption> := [
    InstallOption("Valve.Steam", "Steam", None),
    InstallOption("Discord.Discord", "Discord", None),
    InstallOption("Blizzard.Battle.net", "Battle.net", None),
    InstallOption("Signal.Signal", "Signal", None),
    InstallOption("HWiNFO.HWiNFO", "HWiNFO64", None),
    InstallOption("Ubisoft.UbisoftConnect", "Ubisoft Connect", None),
    InstallOption("Parsec.Parsec", "Parsec", None),
    InstallOption("NVIDIA.GeForceExperience", "NVIDIA GeForce Experience", None),
    InstallOption("Spotify.Spotify", "Spotify", None),
    InstallOption("CPUID.CPU-Z", "CPU-Z", None),
    InstallOption("1Password.1Password", "1Password", None)
  ]

  /** The catalog, in the order the picker shows it. */
  const InstallOptions: seq<InstallOption> := [BaselineOption] + BaselineGroup + Ungrouped

  // ---------------------------------------------------------------------
  // Baseline expansion

  /** A real package of the baseline group; ids and group are compared
      ordinally. */
  predicate IsBaselineMember(x: InstallOption) {
    x.id != BaselineId && x.group == Some(BaselineId)
  }

  /** The meta-option is among the selected entries. */
  predicate BaselineChosen(selected: seq<InstallOption>) {
    exists i :: 0 <= i < |selected| && selected[i].id == BaselineId
  }

  /** The filter over the catalog that keeps the real packages of the
      baseline group: the baseline members, in catalog order. */
  function BaselineMembers(options: seq<InstallOption>): (r: seq<InstallOption>)
    ensures forall x :: x in r <==> x in options && IsBaselineMember(x)
    ensures |r| <= |options|
  {
    if options == [] then []
    else (if IsBaselineMember(options[0]) then [options[0]] else []) + BaselineMembers(options[1..])
  }

  /** The loop over the selection: the meta-option is replaced by the
      baseline members of `options`, every other entry is kept. */
  function Expand(selected: seq<InstallOption>, options: seq<InstallOption>): (r: seq<InstallOption>)
    ensures forall x :: x in r ==> x.id != BaselineId
    ensures forall x :: x in r <==>
      (x in selected && x.id != BaselineId) || (BaselineChosen(selected) && x in options && IsBaselineMember(x))
  {
    if selected == [] then []
    else
      var head := if selected[0].id == BaselineId then BaselineMembers(options) else [selected[0]];
      var rest := Expand(selected[1..], options);
      assert BaselineChosen(selected) <==> selected[0].id == BaselineId || BaselineChosen(selected[1..]) by {
        if BaselineChosen(selected[1..]) {
          var i :| 0 <= i < |selected[1..]| && selected[1..][i].id == BaselineId;
          assert selected[i + 1].id == BaselineId;
        }
        if BaselineChosen(selected) && selected[0].id != BaselineId {
          var i :| 0 <= i < |selected| && selected[i].id == BaselineId;
          assert selected[1..][i - 1].id == BaselineId;
        }
      }
      assert forall x :: x in selected <==> x == selected[0] || x in selected[1..] by {
        assert selected == [selected[0]] + selected[1..];
      }
      head + rest
  }

  /** The baseline filter keeps catalog order and multiplicity: filtering a
      concatenation concatenates the filtered parts. */
  lemma {:induction false} BaselineMembersAppend(a: seq<InstallOption>, b: seq<InstallOption>)
    ensures BaselineMembers(a + b) == BaselineMembers(a) + BaselineMembers(b)
    decreases |a|
  {
    if a == [] {
      assert a + b == b;
    } else {
      var x, tail := a[0], a[1..];
      ConsSplit(a, b);
      BaselineMembersAppend(tail, b);
      BaselineMembersCons(x, tail + b);
      BaselineMembersCons(x, tail);
      var head := if IsBaselineMember(x) then [x] else [];
      ConcatAssociative(head, BaselineMembers(tail), BaselineMembers(b));
    }
  }

  /** Filtering an entry in front of others puts it in front when it is a
      baseline member. */
  lemma BaselineMembersCons(x: InstallOption, rest: seq<InstallOption>)
    ensures BaselineMembers([x] + rest) == (if IsBaselineMember(x) then [x] else []) + BaselineMembers(rest)
  {
    assert ([x] + rest)[0] == x && ([x] + rest)[1..] == rest;
  }

  /** A single entry survives the baseline filter exactly when it is a
      baseline member. */
  lemma BaselineMembersSingle(x: InstallOption)
    ensures BaselineMembers([x]) == if IsBaselineMember(x) then [x] else []
  {
    assert [x][1..] == [];
  }

  /** The expansion keeps the selection order: expanding a concatenation
      concatenates the expanded parts. */
  lemma {:induction false} ExpandAppend(a: seq<InstallOption>, b: seq<InstallOption>, options: seq<InstallOption>)
    ensures Expand(a + b, options) == Expand(a, options) + Expand(b, options)
    decreases |a|
  {
    if a == [] {
      assert a + b == b;
    } else {
      var x, tail := a[0], a[1..];
      ConsSplit(a, b);
      ExpandAppend(tail, b, options);
      ExpandCons(x, tail + b, options);
      ExpandCons(x, tail, options);
      var head := if x.id == BaselineId then BaselineMembers(options) else [x];
      ConcatAssociative(head, Expand(tail, options), Expand(b, options));
    }
  }


  /** Expanding an entry in front of a selection puts its expansion in front. */
  lemma ExpandCons(x: InstallOption, rest: seq<InstallOption>, options: seq<InstallOption>)
    ensures Expand([x] + rest, options) ==
      (if x.id == BaselineId then BaselineMembers(options) else [x]) + Expand(rest, options)
  {
    assert ([x] + rest)[0] == x && ([x] + rest)[1..] == rest;
  }

  /** The meta-option expands to the baseline members of the catalog, in
      catalog order, in its place; any other entry stands for itself. */
  lemma ExpandSingle(x: InstallOption, options: seq<InstallOption>)
    ensures Expand([x], options) == if x.id == BaselineId then BaselineMembers(options) else [x]
  {
    assert [x][1..] == [];
  }

  /** The list the install screen confirms and runs: the expansion,
      de-duplicated by case-insensitive id keeping the first entry of each
      id, in the order the ids first appear. */
  function InstallList(selected: seq<InstallOption>, options: seq<InstallOption>): (r: seq<InstallOption>)
    ensures forall x :: x in r ==> x.id != BaselineId
    ensures DistinctKeys(r, OptionId)
    ensures r == FirstOccurrences(Expand(selected, options), OptionId, |Expand(selected, options)|)
    ensures forall x :: x in r ==> x in Expand(selected, options)
    ensures forall x :: x in selected && x.id != BaselineId ==> Fold(x.id) in KeysOf(r, OptionId)
    ensures forall x :: BaselineChosen(selected) && x in options && IsBaselineMember(x) ==>
      Fold(x.id) in KeysOf(r, OptionId)
  {
    var expanded := Expand(selected, options);
    var r := DistinctBy(expanded, OptionId);
    assert forall x :: x in expanded ==> Fold(OptionId(x)) in KeysOf(expanded, OptionId);
    r
  }

  /** Over a catalog whose ids are distinct, with the selection taken from
      it, the install list holds exactly the selected packages and, when
      the meta-option is chosen, the baseline members, each once. */
  lemma InstallListExactly(selected: seq<InstallOption>, options: seq<InstallOption>)
    requires DistinctKeys(options, OptionId)
    requires forall x :: x in selected ==> x in options
    ensures forall x :: x in InstallList(selected, options) <==>
      (x in selected && x.id != BaselineId) || (BaselineChosen(selected) && x in options && IsBaselineMember(x))
    ensures forall i, j :: 0 <= i < j < |InstallList(selected, options)| ==>
      InstallList(selected, options)[i] != InstallList(selected, options)[j]
  {
    var expanded := Expand(selected, options);
    var r := InstallList(selected, options);
    forall x | x in expanded ensures x in r {
      assert Fold(x.id) in KeysOf(expanded, OptionId);
      var y :| y in r && Fold(OptionId(y)) == Fold(x.id);
      SameKeySameElement(options, OptionId, x, y);
    }
  }

  /** The catalog's ids are pairwise different, ignoring case. */
  lemma CatalogIdsDistinct()
    ensures DistinctKeys(InstallOptions, OptionId)
  {
    var head := [BaselineOption] + BaselineGroup;
    assert AllSeparated(head) && AcrossSeparated(head, Ungrouped) by {
      HeadSeparated();
    }
    UngroupedSeparated();
    SeparatedAppend(head, Ungrouped);
    assert head + Ungrouped == InstallOptions;
    SeparatedIdsDistinct(InstallOptions);
  }

  /** Two ids that differ in length or in their first letter, ignoring
      case. */
  predicate Separated(a: string, b: string) {
    a != [] && b != [] && (|a| != |b| || ToUpper(a[0]) != ToUpper(b[0]))
  }

  predicate AllSeparated(xs: seq<InstallOption>) {
    forall i, j :: 0 <= i < j < |xs| ==> Separated(xs[i].id, xs[j].id)
  }

  predicate AcrossSeparated(xs: seq<InstallOption>, ys: seq<InstallOption>) {
    forall i, j :: 0 <= i < |xs| && 0 <= j < |ys| ==> Separated(xs[i].id, ys[j].id)
  }

  lemma HeadSeparated()
    ensures AllSeparated([BaselineOption] + BaselineGroup)
    ensures AcrossSeparated([BaselineOption] + BaselineGroup, Ungrouped)
  {
  }

  lemma UngroupedSeparated()
    ensures AllSeparated(Ungrouped)
  {
    var front, back := Ungrouped[..6], Ungrouped[6..];
    assert AllSeparated(front) by {
      FrontSeparated(front);
    }
    assert AllSeparated(back) by {
      BackSeparated(back);
    }
    assert AcrossSeparated(front, back) by {
      FrontBackSeparated(front, back);
    }
    SeparatedAppend(front, back);
    assert front + back == Ungrouped;
  }

  lemma FrontSeparated(front: seq<InstallOption>)
    requires front == Ungrouped[..6]
    ensures AllSeparated(front)
  {
  }

  lemma BackSeparated(back: seq<InstallOption>)
    requires back == Ungrouped[6..]
    ensures AllSeparated(back)
  {
  }

  lemma FrontBackSeparated(front: seq<InstallOption>, back: seq<InstallOption>)
    requires front == Ungrouped[..6] && back == Ungrouped[6..]
    ensures AcrossSeparated(front, back)
  {
  }

  lemma SeparatedAppend(xs: seq<InstallOption>, ys: seq<InstallOption>)
    requires AllSeparated(xs) && AllSeparated(ys) && AcrossSeparated(xs, ys)
    ensures AllSeparated(xs + ys)
  {
    var zs := xs + ys;
    forall i, j | 0 <= i < j < |zs| ensures Separated(zs[i].id, zs[j].id) {
      if j < |xs| {
        assert zs[i] == xs[i] && zs[j] == xs[j];
      } else if i < |xs| {
        assert zs[i] == xs[i] && zs[j] == ys[j - |xs|];
      } else {
        assert zs[i] == ys[i - |xs|] && zs[j] == ys[j - |xs|];
      }
    }
  }

  /** Pairwise separated ids are pairwise different ignoring case. */
  lemma SeparatedIdsDistinct(xs: seq<InstallOption>)
    requires AllSeparated(xs)
    ensures DistinctKeys(xs, OptionId)
  {
    forall i, j | 0 <= i < j < |xs| ensures Fold(xs[i].id) != Fold(xs[j].id) {
      SignatureSeparates(xs[i].id, xs[j].id);
    }
  }

  /** Strings of different length, or with different first letters ignoring
      case, are different ignoring case. */
  lemma SignatureSeparates(a: string, b: string)
    requires Separated(a, b)
    ensures Fold(a) != Fold(b)
  {
    if |a| == |b| {
      assert Fold(a)[0] != Fold(b)[0];
    }
  }

  // ---------------------------------------------------------------------
  // winget arguments

  /** The program the installs run. */
  const InstallerExe: string := "winget"

  const InstallPrefix: string := "install --id "
  const InstallSuffix: string := " --accept-package-agreements --accept-source-agreements"

  /** The argument string for installing package `id` silently, with the
      package and source agreements accepted. */
  function InstallArgs(id: string): (r: string)
    ensures |r| == |InstallPrefix| + |id| + |InstallSuffix|
    ensures ParseInstallArgs(r) == Some(id)
  {
    var r := InstallPrefix + id + InstallSuffix;
    assert r[..|InstallPrefix|] == InstallPrefix;
    assert r[|r| - |InstallSuffix|..] == InstallSuffix;
    assert r[|InstallPrefix|..|r| - |InstallSuffix|] == id;
    r
  }

  /** Reads the package id back out of a winget install argument string. */
  function ParseInstallArgs(args: string): (r: Option<string>)
    ensures r.Some? ==> |args| == |InstallPrefix| + |r.value| + |InstallSuffix|
  {
    if |args| >= |InstallPrefix| + |InstallSuffix|
       && args[..|InstallPrefix|] == InstallPrefix
       && args[|args| - |InstallSuffix|..] == InstallSuffix
    then Some(args[|InstallPrefix|..|args| - |InstallSuffix|])
    else None
  }

  /** Different packages get different argument strings. */
  lemma InstallArgsInjective(a: string, b: string)
    requires InstallArgs(a) == InstallArgs(b)
    ensures a == b
  {
    assert Some(a) == ParseInstallArgs(InstallArgs(a)) == ParseInstallArgs(InstallArgs(b)) == Some(b);
  }

  /** Every argument string the parser accepts is the one built for the
      id it reads. */
  lemma ParseInstallArgsInverse(args: string)
    requires ParseInstallArgs(args).Some?
    ensures InstallArgs(ParseInstallArgs(args).value) == args
  {
    var id := ParseInstallArgs(args).value;
    assert args == args[..|InstallPrefix|] + id + args[|args| - |InstallSuffix|..];
  }

  // ---------------------------------------------------------------------
  // Worked example

  /** The baseline members of the catalog are 7-Zip, VLC and Chrome, in
      that order. */
  lemma CatalogBaselineGroup()
    ensures BaselineMembers(InstallOptions) == BaselineGroup
  {
    BaselineMembersSingle(BaselineOption);
    GroupKept(BaselineGroup);
    UngroupedDropped(Ungrouped);
    MiddleKept([BaselineOption], BaselineGroup, Ungrouped);
  }

  /** When the filter drops the outer parts and keeps the middle one, the
      middle part is what remains. */
  lemma MiddleKept(front: seq<InstallOption>, middle: seq<InstallOption>, back: seq<InstallOption>)
    requires BaselineMembers(front) == [] && BaselineMembers(back) == []
    requires BaselineMembers(middle) == middle
    ensures BaselineMembers(front + middle + back) == middle
  {
    BaselineMembersAppend(front + middle, back);
    BaselineMembersAppend(front, middle);
  }

  lemma GroupKept(xs: seq<InstallOption>)
    requires xs == BaselineGroup
    ensures BaselineMembers(xs) == xs
  {
    assert forall i :: 0 <= i < |xs| ==> IsBaselineMember(xs[i]);
    AllBaselineMembers(xs);
  }

  lemma UngroupedDropped(xs: seq<InstallOption>)
    requires xs == Ungrouped
    ensures BaselineMembers(xs) == []
  {
    assert forall i :: 0 <= i < |xs| ==> xs[i].group == None;
    NoBaselineMembers(xs);
  }

  lemma {:induction false} AllBaselineMembers(xs: seq<InstallOption>)
    requires forall i :: 0 <= i < |xs| ==> IsBaselineMember(xs[i])
    ensures BaselineMembers(xs) == xs
    decreases |xs|
  {
    if xs != [] {
      AllBaselineMembers(xs[1..]);
    }
  }

  lemma {:induction false} NoBaselineMembers(xs: seq<InstallOption>)
    requires forall i :: 0 <= i < |xs| ==> !IsBaselineMember(xs[i])
    ensures BaselineMembers(xs) == []
    decreases |xs|
  {
    if xs != [] {
      NoBaselineMembers(xs[1..]);
    }
  }

  /** Choosing the meta-option and 7-Zip again installs 7-Zip, VLC and
      Chrome, in that order, each once. */
  lemma BaselineWithDuplicate(selected: seq<InstallOption>)
    requires selected == [BaselineOption, BaselineGroup[0]]
    ensures InstallList(selected, InstallOptions) == BaselineGroup
  {
    var seven := BaselineGroup[0];
    assert selected == [BaselineOption] + [seven];
    ExpandAppend([BaselineOption], [seven], InstallOptions);
    ExpandSingle(BaselineOption, InstallOptions);
    ExpandSingle(seven, InstallOptions);
    CatalogBaselineGroup();
    assert Expand(selected, InstallOptions) == BaselineGroup + [seven];
    assert Fold(OptionId(seven)) in KeysOf(BaselineGroup, OptionId) by {
      assert seven in BaselineGroup;
    }
    DistinctBySeen(BaselineGroup, seven, OptionId);
    BaselineGroupDistinct();
    DistinctByNoDuplicates(BaselineGroup, OptionId);
  }

  /** The ids of the baseline group differ ignoring case. */
  lemma BaselineGroupDistinct()
    ensures DistinctKeys(BaselineGroup, OptionId)
  {
    CatalogIdsDistinct();
    DistinctKeysSlice(InstallOptions, OptionId, 1, 4);
    assert InstallOptions[1..4] == BaselineGroup;
  }
}

=== FILE: command.dfy ===
/** Turning a stored uninstall command into an executable and an argument
    string (nexmigrate.cs `SplitCommand`), and the Windows Installer
    argument fix-up the removal screen applies before launching it. */
module Command {
  import opened Text

  /** An executable and its argument string. */
  datatype CommandLine = CommandLine(exe: string, args: string)

  /** A trimmed command of the quoted form: a double quote first, and
      another one later. */
  predicate IsQuoted(t: string) {
    t != [] && t[0] == '"' && '"' in t[1..]
  }

  /** No character of `s` is a space (U+0020). */
  predicate NoSpace(s: string) {
    forall i :: 0 <= i < |s| ==> s[i] != ' '
  }

  /** The end of the run of spaces in `t` that starts at `i`. */
  function SpaceRunEnd(t: string, i: nat): (j: nat)
    requires i <= |t|
    ensures i <= j <= |t|
    ensures forall k :: i <= k < j ==> t[k] == ' '
    ensures j == |t| || t[j] != ' '
    ensures i < |t| && t[|t| - 1] != ' ' ==> j < |t|
    decreases |t| - i
  {
    if i < |t| && t[i] == ' ' then SpaceRunEnd(t, i + 1) else i
  }

  /** `r` is the quoted reading of the trimmed command `t`: the executable
      is the quote-free text right after the opening quote, up to the next
      quote, and the argument string is the trimmed text after that quote. */
  predicate QuotedSplit(t: string, r: CommandLine) {
    && '"' !in r.exe
    && |r.exe| + 2 <= |t|
    && t[0] == '"' && t[|r.exe| + 1] == '"'
    && r.exe == t[1..|r.exe| + 1]
    && r.args == Trim(t[|r.exe| + 2..])
  }

  /** `r` is the unquoted reading of the trimmed command `t`: the executable
      is the non-empty, space-free text before the first space, and the
      argument string is everything after the run of spaces that follows it,
      or empty when `t` has no space. */
  predicate PlainSplit(t: string, r: CommandLine) {
    && r.exe != [] && NoSpace(r.exe)
    && |r.exe| + |r.args| <= |t|
    && r.exe == t[..|r.exe|]
    && r.args == t[|t| - |r.args|..]
    && (r.args == [] <==> NoSpace(t))
    && (r.args == [] ==> r.exe == t)
    && (r.args != [] ==>
          && r.args[0] != ' '
          && |r.exe| < |t| - |r.args|
          && forall k :: |r.exe| <= k < |t| - |r.args| ==> t[k] == ' ')
  }

  /** The quoted branch of `SplitCommand` on a trimmed `t`. */
  function SplitQuoted(t: string): (r: CommandLine)
    requires IsQuoted(t)
    ensures QuotedSplit(t, r)
  {
    var end := IndexOf(t, '"', 1);
    assert end > 0 by {
      var k :| 0 <= k < |t[1..]| && t[1..][k] == '"';
      assert t[k + 1] == '"';
    }
    var exe := t[1..end];
    if |t| > end + 1 then CommandLine(exe, Trim(t[end + 1..]))
    else
      assert t[end + 1..] == [];
      CommandLine(exe, "")
  }

  /** Splitting at spaces into at most two parts, dropping empty parts, on a
      non-empty `t` that neither starts nor ends with a space: the first part
      and, when there is one, the remainder after the separating spaces. */
  function SplitAtSpace(t: string): (r: CommandLine)
    requires t != [] && t[0] != ' ' && t[|t| - 1] != ' '
    ensures PlainSplit(t, r)
  {
    var i := IndexOf(t, ' ', 0);
    if i < 0 then
      assert t[..|t|] == t && t[|t|..] == [];
      CommandLine(t, "")
    else
      var j := SpaceRunEnd(t, i);
      CommandLine(t[..i], t[j..])
  }

  /** `SplitCommand`: the command is trimmed; a leading quote that is closed
      again delimits the executable and the trimmed rest is the argument
      string; otherwise (also for an unclosed quote) the command splits at
      its first space. A blank command has no first part, so the source
      would fail on it; its one caller never passes one. */
  function SplitCommand(cmd: string): (r: CommandLine)
    requires !IsBlank(cmd)
    ensures IsQuoted(Trim(cmd)) ==> QuotedSplit(Trim(cmd), r)
    ensures !IsQuoted(Trim(cmd)) ==> PlainSplit(Trim(cmd), r)
  {
    var t := Trim(cmd);
    QuotedIffClosingQuote(t);
    if t[0] == '"' && IndexOf(t, '"', 1) > 0 then SplitQuoted(t) else SplitAtSpace(t)
  }

  /** The source's test for the quoted form agrees with `IsQuoted`. */
  lemma QuotedIffClosingQuote(t: string)
    requires t != []
    ensures IsQuoted(t) <==> t[0] == '"' && IndexOf(t, '"', 1) > 0
  {
    if t[0] == '"' && '"' in t[1..] {
      var k :| 0 <= k < |t[1..]| && t[1..][k] == '"';
      assert t[k + 1] == '"';
    }
    if IndexOf(t, '"', 1) > 0 {
      assert t[1..][IndexOf(t, '"', 1) - 1] == '"';
    }
  }

  /** The quoted reading of a command is unique. */
  lemma QuotedSplitDetermined(t: string, r: CommandLine)
    requires IsQuoted(t) && QuotedSplit(t, r)
    ensures r == SplitQuoted(t)
  {
    var n := |r.exe| + 1;
    assert forall k :: 1 <= k < n ==> t[k] == r.exe[k - 1];
    assert IndexOf(t, '"', 1) == n;
  }

  /** The unquoted reading of a command is unique. */
  lemma PlainSplitDetermined(t: string, r: CommandLine)
    requires t != [] && t[0] != ' ' && t[|t| - 1] != ' '
    requires PlainSplit(t, r)
    ensures r == SplitAtSpace(t)
  {
    if r.args != [] {
      var i, j := |r.exe|, |t| - |r.args|;
      forall k | 0 <= k < i ensures t[k] != ' ' {
        assert t[k] == t[..i][k];
      }
      assert t[i] == ' ';
      assert IndexOf(t, ' ', 0) == i;
      assert t[j] == r.args[0];
      assert SpaceRunEnd(t, i) == j;
    }
  }

  /** The quoted form of an executable and its arguments. */
  function JoinQuoted(exe: string, args: string): string {
    ['"'] + exe + ['"'] + (if args == [] then [] else [' '] + args)
  }

  /** The unquoted form of an executable and its arguments. */
  function JoinPlain(exe: string, args: string): string {
    exe + (if args == [] then [] else [' '] + args)
  }

  /** Splitting undoes quoting: any quote-free executable path and trimmed
      argument string come back out of their quoted form. */
  lemma QuotedRoundTrip(exe: string, args: string)
    requires '"' !in exe
    requires Trim(args) == args
    ensures !IsBlank(JoinQuoted(exe, args))
    ensures SplitCommand(JoinQuoted(exe, args)) == CommandLine(exe, args)
  {
    var cmd := JoinQuoted(exe, args);
    JoinQuotedTrimmed(exe, args);
    JoinQuotedSplit(exe, args);
    QuotedSplitDetermined(cmd, CommandLine(exe, args));
    QuotedSplitDetermined(cmd, SplitCommand(cmd));
  }

  /** Splitting undoes the unquoted form: an executable without spaces and
      a trimmed argument string come back out of `exe args`. */
  lemma PlainRoundTrip(exe: string, args: string)
    requires exe != [] && NoSpace(exe) && exe[0] != '"'
    requires !IsWhiteSpace(exe[0]) && !IsWhiteSpace(exe[|exe| - 1])
    requires Trim(args) == args
    ensures !IsBlank(JoinPlain(exe, args))
    ensures SplitCommand(JoinPlain(exe, args)) == CommandLine(exe, args)
  {
    var cmd := JoinPlain(exe, args);
    JoinPlainTrimmed(exe, args);
    JoinPlainSplit(exe, args);
    PlainSplitDetermined(cmd, CommandLine(exe, args));
    PlainSplitDetermined(cmd, SplitCommand(cmd));
  }

  lemma JoinQuotedTrimmed(exe: string, args: string)
    requires Trim(args) == args
    ensures Trim(JoinQuoted(exe, args)) == JoinQuoted(exe, args)
    ensures IsQuoted(JoinQuoted(exe, args))
  {
    var cmd := JoinQuoted(exe, args);
    assert cmd[0] == '"';
    assert !IsWhiteSpace(cmd[|cmd| - 1]);
    TrimUnchanged(cmd);
    assert cmd[1..][|exe|] == '"';
  }

  lemma JoinQuotedSplit(exe: string, args: string)
    requires '"' !in exe
    requires Trim(args) == args
    ensures QuotedSplit(JoinQuoted(exe, args), CommandLine(exe, args))
  {
    var cmd := JoinQuoted(exe, args);
    var n := |exe| + 1;
    var tail := if args == [] then [] else [' '] + args;
    assert cmd[n] == '"';
    assert cmd[1..n] == exe;
    assert cmd[n + 1..] == tail;
    assert Trim(tail) == args by {
      if args != [] {
        TrimAfterWhiteSpace(' ', args);
      }
    }
  }

  lemma JoinPlainTrimmed(exe: string, args: string)
    requires exe != [] && exe[0] != '"'
    requires !IsWhiteSpace(exe[0]) && !IsWhiteSpace(exe[|exe| - 1])
    requires Trim(args) == args
    ensures Trim(JoinPlain(exe, args)) == JoinPlain(exe, args)
    ensures !IsQuoted(JoinPlain(exe, args))
  {
    var cmd := JoinPlain(exe, args);
    assert cmd[0] == exe[0];
    assert !IsWhiteSpace(cmd[|cmd| - 1]);
    TrimUnchanged(cmd);
  }

  lemma JoinPlainSplit(exe: string, args: string)
    requires exe != [] && NoSpace(exe)
    requires Trim(args) == args
    ensures PlainSplit(JoinPlain(exe, args), CommandLine(exe, args))
  {
    var cmd := JoinPlain(exe, args);
    assert cmd[..|exe|] == exe;
    if args != [] {
      assert args[0] != ' ' by {
        assert !IsWhiteSpace(Trim(args)[0]);
      }
      assert cmd[|exe|] == ' ';
      assert cmd[|exe| + 1..] == args;
      assert !NoSpace(cmd);
    } else {
      assert cmd == exe;
    }
  }

  // ---------------------------------------------------------------------
  // Windows Installer arguments

  /** The uppercase removal option of msiexec. */
  const RemovalFlag: string := "/X"

  /** The silent option whose presence suppresses the appended flags. */
  const QuietFlag: string := "/qn"

  /** What is appended when the silent option is missing. */
  const SilentFlags: string := " /qn /norestart"

  /** The executable is the Windows Installer, `msiexec` with or without its
      extension, in any letter case. */
  predicate IsMsiexec(exe: string) {
    EqualsIgnoreCase(exe, "msiexec.exe") || EqualsIgnoreCase(exe, "msiexec")
  }

  /** No uppercase removal option `/X` occurs in `s`. */
  predicate NoUpperRemovalFlag(s: string) {
    forall i :: 0 <= i < |s| - 1 ==> !(s[i] == '/' && s[i + 1] == 'X')
  }

  /** The character at position `i` once the removal options are lowered:
      an `X` right after a `/` becomes `x`, every other character stays. */
  function LoweredChar(s: string, i: nat): char
    requires i < |s|
  {
    if 0 < i && s[i - 1] == '/' && s[i] == 'X' then 'x' else s[i]
  }

  /** The ordinal replacement of `/X` by `/x`: lower-cases every removal
      option and changes nothing else. */
  function LowerRemovalFlag(args: string): (r: string)
    ensures |r| == |args|
    ensures forall i :: 0 <= i < |args| ==> r[i] == LoweredChar(args, i)
    ensures Fold(r) == Fold(args)
    ensures NoUpperRemovalFlag(r) && !Contains(r, RemovalFlag)
  {
    var r := Replace(args, RemovalFlag, "/x");
    LowerRemovalFlagFacts(args);
    NoFlagNotContained(r);
    r
  }

  /** The argument fix-up for the Windows Installer: removal options are
      lower-cased and, unless a silent option is present in any letter case,
      the silent and no-restart options are appended. Arguments of any other
      executable pass through unchanged. */
  function NormalizeArgs(exe: string, args: string): (r: string)
    ensures !IsMsiexec(exe) ==> r == args
    ensures IsMsiexec(exe) ==> !Contains(r, RemovalFlag) && ContainsIgnoreCase(r, QuietFlag)
    ensures IsMsiexec(exe) && ContainsIgnoreCase(args, QuietFlag) ==> r == LowerRemovalFlag(args)
    ensures IsMsiexec(exe) && !ContainsIgnoreCase(args, QuietFlag) ==> r == LowerRemovalFlag(args) + SilentFlags
  {
    if IsMsiexec(exe) then
      var lowered := LowerRemovalFlag(args);
      if ContainsIgnoreCase(lowered, QuietFlag) then lowered
      else
        SilentFlagsSuffix(lowered);
        lowered + SilentFlags
    else args
  }

  /** Normalising arguments twice is the same as normalising them once. */
  lemma NormalizeArgsIdempotent(exe: string, args: string)
    ensures NormalizeArgs(exe, NormalizeArgs(exe, args)) == NormalizeArgs(exe, args)
  {
    var once := NormalizeArgs(exe, args);
    if IsMsiexec(exe) {
      assert Replace(once, RemovalFlag, "/x") == once;
    }
  }

  // ---------------------------------------------------------------------
  // Proofs

  /** `r` is `s` with exactly the `X` after a `/` lowered, and no `/X`
      left. */
  ghost predicate LoweredFrom(s: string, r: string) {
    && |r| == |s|
    && (forall i :: 0 <= i < |s| ==> r[i] == LoweredChar(s, i))
    && NoUpperRemovalFlag(r)
  }

  lemma {:induction false} LowerRemovalFlagFacts(s: string)
    ensures LoweredFrom(s, Replace(s, RemovalFlag, "/x"))
    decreases |s|
  {
    if |s| < 2 {
    } else if s[..2] == RemovalFlag {
      LowerRemovalFlagFacts(s[2..]);
      LoweredFlagStep(s, Replace(s, RemovalFlag, "/x"), Replace(s[2..], RemovalFlag, "/x"));
    } else {
      LowerRemovalFlagFacts(s[1..]);
      assert !(s[0] == '/' && s[1] == 'X') by {
        assert s[..2] == [s[0], s[1]];
      }
      LoweredOtherStep(s, Replace(s, RemovalFlag, "/x"), Replace(s[1..], RemovalFlag, "/x"));
    }
  }

  /** A leading `/X` becomes `/x` in front of the lowered rest. */
  lemma LoweredFlagStep(s: string, r: string, rest: string)
    requires |s| >= 2 && s[..2] == RemovalFlag
    requires r == "/x" + rest
    requires LoweredFrom(s[2..], rest)
    ensures LoweredFrom(s, r)
  {
    assert s[0] == '/' && s[1] == 'X' by {
      assert s[..2][0] == s[0] && s[..2][1] == s[1];
    }
    NoUpperCons('x', rest);
    NoUpperCons('/', ['x'] + rest);
    assert r == ['/'] + (['x'] + rest);
    forall i | 2 <= i < |s| ensures r[i] == LoweredChar(s, i) {
      assert r[i] == rest[i - 2] && s[i] == s[2..][i - 2];
      assert i > 2 ==> s[i - 1] == s[2..][i - 3];
    }
  }

  /** A leading character that does not start `/X` is kept in front of the
      lowered rest. */
  lemma LoweredOtherStep(s: string, r: string, rest: string)
    requires |s| >= 2 && !(s[0] == '/' && s[1] == 'X')
    requires r == [s[0]] + rest
    requires LoweredFrom(s[1..], rest)
    ensures LoweredFrom(s, r)
  {
    assert rest[0] == s[1];
    NoUpperCons(s[0], rest);
    forall i | 1 <= i < |s| ensures r[i] == LoweredChar(s, i) {
      assert r[i] == rest[i - 1] && s[i] == s[1..][i - 1];
      assert i > 1 ==> s[i - 1] == s[1..][i - 2];
    }
  }

  /** Putting a character in front keeps a string free of `/X` unless the
      two form one. */
  lemma NoUpperCons(c: char, t: string)
    requires NoUpperRemovalFlag(t)
    requires t == [] || !(c == '/' && t[0] == 'X')
    ensures NoUpperRemovalFlag([c] + t)
  {
    var u := [c] + t;
    forall i | 1 <= i < |u| - 1 ensures !(u[i] == '/' && u[i + 1] == 'X') {
      assert u[i] == t[i - 1] && u[i + 1] == t[i];
    }
  }

  lemma NoFlagNotContained(s: string)
    requires NoUpperRemovalFlag(s)
    ensures !Contains(s, RemovalFlag)
  {
    forall i | 0 <= i <= |s| - 2
      ensures !OccursAt(s, RemovalFlag, i)
    {
      assert s[i..i + 2] == [s[i], s[i + 1]];
    }
  }

  /** Appending the silent flags keeps the removal option out and brings the
      silent option in. */
  lemma SilentFlagsSuffix(s: string)
    requires NoUpperRemovalFlag(s)
    ensures NoUpperRemovalFlag(s + SilentFlags)
    ensures !Contains(s + SilentFlags, RemovalFlag)
    ensures ContainsIgnoreCase(s + SilentFlags, QuietFlag)
  {
    var t := s + SilentFlags;
    assert forall i :: |s| <= i < |t| ==> t[i] != 'X';
    assert forall i :: 0 <= i < |s| ==> t[i] == s[i];
    NoFlagNotContained(t);
    var f, q, k := Fold(t), Fold(QuietFlag), |s| + 1;
    assert t[k] == '/' && t[k + 1] == 'q' && t[k + 2] == 'n';
    assert q == [f[k], f[k + 1], f[k + 2]];
    assert f[k..k + 3] == q;
    assert OccursAt(f, q, k);
  }

  // ---------------------------------------------------------------------
  // Worked examples

  /** A quoted vendor uninstaller keeps its arguments as they are: the
      executable is not the Windows Installer. */
  lemma QuotedVendorUninstaller(cmd: string)
    requires cmd == "\"C:\\Foo\\u.exe\" /X{GUID}"
    ensures !IsBlank(cmd)
    ensures SplitCommand(cmd) == CommandLine("C:\\Foo\\u.exe", "/X{GUID}")
    ensures NormalizeArgs(SplitCommand(cmd).exe, SplitCommand(cmd).args) == "/X{GUID}"
  {
    ExampleArgsTrimmed();
    QuotedExampleParts();
    QuotedRoundTrip("C:\\Foo\\u.exe", "/X{GUID}");
    ExampleNotMsiexec();
  }

  /** A typical Windows Installer command is made silent. */
  lemma MsiexecUninstall(cmd: string)
    requires cmd == "MsiExec.exe /X{GUID}"
    ensures !IsBlank(cmd)
    ensures SplitCommand(cmd) == CommandLine("MsiExec.exe", "/X{GUID}")
    ensures NormalizeArgs(SplitCommand(cmd).exe, SplitCommand(cmd).args) == "/x{GUID} /qn /norestart"
  {
    ExampleArgsTrimmed();
    PlainExampleParts();
    PlainRoundTrip("MsiExec.exe", "/X{GUID}");
    var r := SplitCommand(cmd);
    ExampleIsMsiexec();
    ExampleNotQuiet();
    assert NormalizeArgs(r.exe, r.args) == LowerRemovalFlag(r.args) + SilentFlags;
    ExampleLowered(r.args);
    ExampleSilenced();
  }

  lemma ExampleSilenced()
    ensures "/x{GUID}" + SilentFlags == "/x{GUID} /qn /norestart"
  {
  }

  lemma ExampleNotMsiexec()
    ensures !IsMsiexec("C:\\Foo\\u.exe")
  {
    assert |Fold("C:\\Foo\\u.exe")| == 12;
  }

  lemma ExampleArgsTrimmed()
    ensures Trim("/X{GUID}") == "/X{GUID}"
  {
    TrimUnchanged("/X{GUID}");
  }

  lemma QuotedExampleParts()
    ensures '"' !in "C:\\Foo\\u.exe"
    ensures JoinQuoted("C:\\Foo\\u.exe", "/X{GUID}") == "\"C:\\Foo\\u.exe\" /X{GUID}"
  {
    var exe := "C:\\Foo\\u.exe";
    assert forall i :: 0 <= i < |exe| ==> exe[i] != '"';
    var j, l := JoinQuoted(exe, "/X{GUID}"), "\"C:\\Foo\\u.exe\" /X{GUID}";
    assert |j| == |l|;
    assert forall i :: 0 <= i < |j| ==> j[i] == l[i];
  }

  lemma PlainExampleParts()
    ensures NoSpace("MsiExec.exe")
    ensures JoinPlain("MsiExec.exe", "/X{GUID}") == "MsiExec.exe /X{GUID}"
  {
    var exe := "MsiExec.exe";
    assert forall i :: 0 <= i < |exe| ==> exe[i] != ' ';
  }

  lemma ExampleIsMsiexec()
    ensures IsMsiexec("MsiExec.exe")
  {
    var exe, m := "MsiExec.exe", "msiexec.exe";
    assert forall i :: 0 <= i < |exe| ==> ToUpper(exe[i]) == ToUpper(m[i]);
    assert Fold(exe) == Fold(m);
  }

  lemma ExampleLowered(args: string)
    requires args == "/X{GUID}"
    ensures LowerRemovalFlag(args) == "/x{GUID}"
  {
    var lowered := LowerRemovalFlag(args);
    assert lowered[0] == '/';
    assert lowered[1] == 'x';
    assert forall i :: 2 <= i < |args| ==> args[i] != 'X';
    assert forall i :: 0 <= i < |args| ==> lowered[i] == "/x{GUID}"[i];
  }

  lemma ExampleNotQuiet()
    ensures !ContainsIgnoreCase("/X{GUID}", QuietFlag)
  {
    var s := "/X{GUID}";
    var f, q := Fold(s), Fold(QuietFlag);
    assert forall i :: 0 <= i < |s| ==> f[i] != 'Q';
    forall i | 0 <= i <= |f| - |q| ensures !OccursAt(f, q, i) {
      assert f[i..i + |q|][1] == f[i + 1];
    }
  }
}

=== FILE: distinct.dfy ===
/** Grouping by a key compared ordinally ignoring case and taking the first
    element of each group:
    one element per case-insensitive key, the first of its group, with the
    groups in the order their keys first appear. */
module Distinct {
  import opened Text

  /** The case-insensitive keys present in `xs`. */
  ghost function KeysOf<T>(xs: seq<T>, key: T -> string): set<string> {
    set y | y in xs :: Fold(key(y))
  }

  /** No two elements of `xs` have case-insensitively equal keys. */
  ghost predicate DistinctKeys<T>(xs: seq<T>, key: T -> string) {
    forall i, j :: 0 <= i < j < |xs| ==> Fold(key(xs[i])) != Fold(key(xs[j]))
  }

  /** `xs[i]` is the first element of its key group. */
  ghost predicate IsFirst<T>(xs: seq<T>, key: T -> string, i: int)
    requires 0 <= i < |xs|
  {
    Fold(key(xs[i])) !in KeysOf(xs[..i], key)
  }

  /** The reference definition: the elements of `xs[..n]` that are the first
      of their key group, in input order. */
  ghost function FirstOccurrences<T>(xs: seq<T>, key: T -> string, n: nat): seq<T>
    requires n <= |xs|
    decreases n
  {
    if n == 0 then []
    else FirstOccurrences(xs, key, n - 1) + (if IsFirst(xs, key, n - 1) then [xs[n - 1]] else [])
  }

  /** The grouping pass: walks `xs[n..]`, keeping an element when its key is
      not among those already `seen`. */
  function Pass<T>(xs: seq<T>, key: T -> string, n: nat, seen: set<string>): seq<T>
    requires n <= |xs|
    decreases |xs| - n
  {
    if n == |xs| then []
    else
      var k := Fold(key(xs[n]));
      if k in seen then Pass(xs, key, n + 1, seen)
      else [xs[n]] + Pass(xs, key, n + 1, seen + {k})
  }

  /** One element per case-insensitive key: the first of its group, in the
      order the keys first appear. */
  function DistinctBy<T>(xs: seq<T>, key: T -> string): (r: seq<T>)
    ensures r == FirstOccurrences(xs, key, |xs|)
    ensures DistinctKeys(r, key)
    ensures KeysOf(r, key) == KeysOf(xs, key)
    ensures forall y :: y in r ==> y in xs
    ensures forall i :: 0 <= i < |xs| && IsFirst(xs, key, i) ==> xs[i] in r
  {
    PassFacts(xs, key);
    Pass(xs, key, 0, {})
  }

  lemma PassFacts<T>(xs: seq<T>, key: T -> string)
    ensures Pass(xs, key, 0, {}) == FirstOccurrences(xs, key, |xs|)
    ensures DistinctKeys(Pass(xs, key, 0, {}), key)
    ensures KeysOf(Pass(xs, key, 0, {}), key) == KeysOf(xs, key)
    ensures forall y :: y in Pass(xs, key, 0, {}) ==> y in xs
    ensures forall i :: 0 <= i < |xs| && IsFirst(xs, key, i) ==> xs[i] in Pass(xs, key, 0, {})
  {
    assert xs[..0] == [];
    assert KeysOf(xs[..0], key) == {};
    assert xs[..|xs|] == xs;
    PassIsFirstOccurrences(xs, key, 0);
    FirstOccurrencesFromPrefix(xs, key, |xs|);
    FirstOccurrencesKeys(xs, key, |xs|);
    FirstOccurrencesDistinct(xs, key, |xs|);
    FirstOccurrencesKeepsFirst(xs, key, |xs|);
  }

  // ---------------------------------------------------------------------
  // Proofs

  lemma KeysOfAppend<T>(a: seq<T>, b: seq<T>, key: T -> string)
    ensures KeysOf(a + b, key) == KeysOf(a, key) + KeysOf(b, key)
  {
    forall k | k in KeysOf(a + b, key)
      ensures k in KeysOf(a, key) + KeysOf(b, key)
    {
      var y :| y in a + b && Fold(key(y)) == k;
      if y in a { assert k in KeysOf(a, key); } else { assert k in KeysOf(b, key); }
    }
    forall k | k in KeysOf(a, key) + KeysOf(b, key)
      ensures k in KeysOf(a + b, key)
    {
      if k in KeysOf(a, key) {
        var y :| y in a && Fold(key(y)) == k;
        assert y in a + b;
      } else {
        var y :| y in b && Fold(key(y)) == k;
        assert y in a + b;
      }
    }
  }

  lemma KeysOfStep<T>(xs: seq<T>, key: T -> string, n: nat)
    requires n < |xs|
    ensures KeysOf(xs[..n + 1], key) == KeysOf(xs[..n], key) + {Fold(key(xs[n]))}
  {
    assert xs[..n + 1] == xs[..n] + [xs[n]];
    KeysOfAppend(xs[..n], [xs[n]], key);
    assert KeysOf([xs[n]], key) == {Fold(key(xs[n]))};
  }

  /** The pass, started after a prefix with the prefix's keys as `seen`,
      completes the reference filter of that prefix. */
  lemma {:induction false} PassIsFirstOccurrences<T>(xs: seq<T>, key: T -> string, n: nat)
    requires n <= |xs|
    ensures FirstOccurrences(xs, key, n) + Pass(xs, key, n, KeysOf(xs[..n], key))
            == FirstOccurrences(xs, key, |xs|)
    decreases |xs| - n
  {
    if n < |xs| {
      var seen := KeysOf(xs[..n], key);
      var rest := Pass(xs, key, n + 1, KeysOf(xs[..n + 1], key));
      assert FirstOccurrences(xs, key, n) + Pass(xs, key, n, seen)
             == FirstOccurrences(xs, key, n + 1) + rest by {
        PassStep(xs, key, n);
      }
      PassIsFirstOccurrences(xs, key, n + 1);
    } else {
      assert Pass(xs, key, n, KeysOf(xs[..n], key)) == [];
    }
  }

  /** One step of the pass keeps `xs[n]` exactly when the reference filter
      does. */
  lemma PassStep<T>(xs: seq<T>, key: T -> string, n: nat)
    requires n < |xs|
    ensures FirstOccurrences(xs, key, n) + Pass(xs, key, n, KeysOf(xs[..n], key))
            == FirstOccurrences(xs, key, n + 1) + Pass(xs, key, n + 1, KeysOf(xs[..n + 1], key))
  {
    var seen := KeysOf(xs[..n], key);
    var before := FirstOccurrences(xs, key, n);
    var rest := Pass(xs, key, n + 1, KeysOf(xs[..n + 1], key));
    KeysOfStep(xs, key, n);
    if IsFirst(xs, key, n) {
      assert Pass(xs, key, n, seen) == [xs[n]] + rest;
      assert before + ([xs[n]] + rest) == (before + [xs[n]]) + rest;
    } else {
      assert KeysOf(xs[..n + 1], key) == seen;
    }
  }

  /** Every element the reference filter keeps comes from the prefix. */
  lemma {:induction false} FirstOccurrencesFromPrefix<T>(xs: seq<T>, key: T -> string, n: nat)
    requires n <= |xs|
    ensures forall y :: y in FirstOccurrences(xs, key, n) ==> y in xs[..n]
    decreases n
  {
    if n > 0 {
      FirstOccurrencesFromPrefix(xs, key, n - 1);
      assert xs[..n] == xs[..n - 1] + [xs[n - 1]];
    }
  }

  /** The reference filter covers exactly the keys of the prefix. */
  lemma {:induction false} FirstOccurrencesKeys<T>(xs: seq<T>, key: T -> string, n: nat)
    requires n <= |xs|
    ensures KeysOf(FirstOccurrences(xs, key, n), key) == KeysOf(xs[..n], key)
    decreases n
  {
    if n == 0 {
      assert xs[..0] == [];
    } else {
      var prev := FirstOccurrences(xs, key, n - 1);
      var e := if IsFirst(xs, key, n - 1) then [xs[n - 1]] else [];
      FirstOccurrencesKeys(xs, key, n - 1);
      KeysOfStep(xs, key, n - 1);
      KeysOfAppend(prev, e, key);
      KeysOfAtMostOne(xs[n - 1], e, key);
    }
  }

  /** The keys of the empty sequence and of a one-element sequence. */
  lemma KeysOfAtMostOne<T>(x: T, e: seq<T>, key: T -> string)
    requires e == [] || e == [x]
    ensures e == [] ==> KeysOf(e, key) == {}
    ensures e == [x] ==> KeysOf(e, key) == {Fold(key(x))}
  {
  }

  /** The reference filter never keeps two elements with the same key. */
  lemma {:induction false} FirstOccurrencesDistinct<T>(xs: seq<T>, key: T -> string, n: nat)
    requires n <= |xs|
    ensures DistinctKeys(FirstOccurrences(xs, key, n), key)
    decreases n
  {
    if n > 0 {
      var prev := FirstOccurrences(xs, key, n - 1);
      FirstOccurrencesDistinct(xs, key, n - 1);
      if IsFirst(xs, key, n - 1) {
        FirstOccurrencesKeys(xs, key, n - 1);
        var r := prev + [xs[n - 1]];
        forall i, j | 0 <= i < j < |r|
          ensures Fold(key(r[i])) != Fold(key(r[j]))
        {
          if j == |prev| {
            assert r[i] == prev[i] && prev[i] in prev;
            assert Fold(key(prev[i])) in KeysOf(prev, key);
          } else {
            assert r[i] == prev[i] && r[j] == prev[j];
          }
        }
      }
    }
  }

  /** Every first occurrence in the prefix is kept. */
  lemma {:induction false} FirstOccurrencesKeepsFirst<T>(xs: seq<T>, key: T -> string, n: nat)
    requires n <= |xs|
    ensures forall i :: 0 <= i < n && IsFirst(xs, key, i) ==> xs[i] in FirstOccurrences(xs, key, n)
    decreases n
  {
    if n > 0 {
      FirstOccurrencesKeepsFirst(xs, key, n - 1);
      var prev, cur := FirstOccurrences(xs, key, n - 1), FirstOccurrences(xs, key, n);
      assert forall y :: y in prev ==> y in cur;
      if IsFirst(xs, key, n - 1) {
        assert cur[|prev|] == xs[n - 1];
      }
    }
  }

  /** A key in a duplicate-free sequence identifies its element. */
  lemma SameKeySameElement<T>(xs: seq<T>, key: T -> string, a: T, b: T)
    requires DistinctKeys(xs, key)
    requires a in xs && b in xs
    requires Fold(key(a)) == Fold(key(b))
    ensures a == b
  {
    var i :| 0 <= i < |xs| && xs[i] == a;
    var j :| 0 <= j < |xs| && xs[j] == b;
  }

  /** Deduplication leaves a duplicate-free input unchanged. */
  lemma DistinctByNoDuplicates<T>(xs: seq<T>, key: T -> string)
    requires DistinctKeys(xs, key)
    ensures DistinctBy(xs, key) == xs
  {
    FirstUpTo(xs, key, |xs|);
    assert xs[..|xs|] == xs;
  }

  lemma {:induction false} FirstUpTo<T>(xs: seq<T>, key: T -> string, n: nat)
    requires DistinctKeys(xs, key)
    requires n <= |xs|
    ensures FirstOccurrences(xs, key, n) == xs[..n]
    decreases n
  {
    if n > 0 {
      FirstUpTo(xs, key, n - 1);
      assert IsFirst(xs, key, n - 1) by {
        forall y | y in xs[..n - 1]
          ensures Fold(key(y)) != Fold(key(xs[n - 1]))
        {
          var i :| 0 <= i < n - 1 && xs[..n - 1][i] == y;
          assert xs[i] == y;
        }
      }
      assert xs[..n] == xs[..n - 1] + [xs[n - 1]];
    }
  }

  /** Which elements of a prefix are first of their group does not depend on
      what follows the prefix. */
  lemma {:induction false} FirstOccurrencesPrefix<T>(xs: seq<T>, ys: seq<T>, key: T -> string, n: nat)
    requires n <= |xs|
    ensures FirstOccurrences(xs + ys, key, n) == FirstOccurrences(xs, key, n)
    decreases n
  {
    if n > 0 {
      FirstOccurrencesPrefix(xs, ys, key, n - 1);
      assert (xs + ys)[..n - 1] == xs[..n - 1] && (xs + ys)[n - 1] == xs[n - 1];
    }
  }

  /** An element whose key was already seen adds nothing to the
      deduplication. */
  lemma DistinctBySeen<T>(xs: seq<T>, y: T, key: T -> string)
    requires Fold(key(y)) in KeysOf(xs, key)
    ensures DistinctBy(xs + [y], key) == DistinctBy(xs, key)
  {
    FirstOccurrencesSeen(xs, y, key);
  }

  lemma FirstOccurrencesSeen<T>(xs: seq<T>, y: T, key: T -> string)
    requires Fold(key(y)) in KeysOf(xs, key)
    ensures FirstOccurrences(xs + [y], key, |xs| + 1) == FirstOccurrences(xs, key, |xs|)
  {
    var n := |xs|;
    FirstOccurrencesPrefix(xs, [y], key, n);
    assert (xs + [y])[..n] == xs && (xs + [y])[n] == y;
    assert !IsFirst(xs + [y], key, n);
  }

  /** Every element the deduplication keeps is the first of its group. */
  lemma {:induction false} FirstOccurrencesOnlyFirst<T>(xs: seq<T>, key: T -> string, n: nat)
    requires n <= |xs|
    ensures forall y :: y in FirstOccurrences(xs, key, n) ==>
      exists i :: 0 <= i < n && IsFirst(xs, key, i) && xs[i] == y
    decreases n
  {
    if n > 0 {
      FirstOccurrencesOnlyFirst(xs, key, n - 1);
    }
  }

  /** A slice of a duplicate-free list is duplicate-free. */
  lemma DistinctKeysSlice<T>(xs: seq<T>, key: T -> string, lo: nat, hi: nat)
    requires DistinctKeys(xs, key) && lo <= hi <= |xs|
    ensures DistinctKeys(xs[lo..hi], key)
  {
    var s := xs[lo..hi];
    forall i, j | 0 <= i < j < |s| ensures Fold(key(s[i])) != Fold(key(s[j])) {
      assert s[i] == xs[lo + i] && s[j] == xs[lo + j];
    }
  }
}

=== FILE: grid.dfy ===
/** The check-box grid of nexmigrate.cs `GridSelect`, without the terminal:
    every item gets a cell of a fixed width in row-major order, the scroll
    area is sized to hold all of them, and the result is the items whose box
    is checked when the user confirms. */
module Grid {

  /** A labelled item and the value it stands for. */
  datatype Item<T> = Item(text: string, data: T)

  /** Where one check box is placed: its column offset, its row and its
      width, in character cells. */
  datatype Cell = Cell(x: int, y: int, width: int)

  /** The placed check boxes and the size of the scrollable content. */
  datatype Layout = Layout(cells: seq<Cell>, contentWidth: int, contentHeight: int)

  /** The length of the longest label. */
  function MaxLabelLength<T>(items: seq<Item<T>>): (m: nat)
    requires items != []
    ensures forall i :: 0 <= i < |items| ==> |items[i].text| <= m
    ensures exists i :: 0 <= i < |items| && |items[i].text| == m
    decreases |items|
  {
    if |items| == 1 then |items[0].text|
    else
      var rest := MaxLabelLength(items[1..]);
      assert forall i :: 1 <= i < |items| ==> items[i] == items[1..][i - 1];
      if |items[0].text| >= rest then |items[0].text| else rest
  }

  /** Every cell is four characters wider than the longest label. */
  function CellWidth<T>(items: seq<Item<T>>): (w: nat)
    requires items != []
    ensures forall i :: 0 <= i < |items| ==> |items[i].text| + 4 <= w
    ensures exists i :: 0 <= i < |items| && |items[i].text| + 4 == w
  {
    MaxLabelLength(items) + 4
  }

  /** The ceiling of `count / columns` in integer arithmetic: the fewest
      rows of `columns` cells that hold `count` items. */
  function Rows(count: nat, columns: nat): (rows: nat)
    requires columns > 0
    ensures count <= rows * columns
    ensures rows == 0 || (rows - 1) * columns < count
  {
    var rows := (count + columns - 1) / columns;
    DivisionBounds(count + columns - 1, columns);
    rows
  }

  /** The cell of the `i`-th item: column `i % columns`, row `i / columns`. */
  function Place(i: nat, columns: nat, width: nat): Cell
    requires columns > 0
  {
    Cell((i % columns) * width, i / columns, width)
  }

  /** Every item's cell lies inside the content area. */
  lemma PlaceInBounds(i: nat, count: nat, columns: nat, width: nat)
    requires columns > 0 && i < count
    ensures var c := Place(i, columns, width);
      && 0 <= c.x && c.x + c.width <= width * columns
      && 0 <= c.y < Rows(count, columns)
  {
    var col, row := i % columns, i / columns;
    assert i == row * columns + col;
    MultiplyMonotone(col + 1, columns, width);
    assert (col + 1) * width == col * width + width;
    var rows := Rows(count, columns);
    assert row * columns < rows * columns;
    MultiplyLessThan(row, rows, columns);
  }

  /** Different items never share a cell. */
  lemma PlaceInjective(i: nat, j: nat, columns: nat, width: nat)
    requires columns > 0 && width > 0 && i != j
    ensures Place(i, columns, width) != Place(j, columns, width)
  {
    assert i == (i / columns) * columns + i % columns;
    assert j == (j / columns) * columns + j % columns;
    if i % columns != j % columns {
      MultiplyInjective(i % columns, j % columns, width);
    }
  }

  /** The layout part of `GridSelect` as its loop computes it: one cell per
      item in row-major order, and content `cellWidth * columns` wide and
      `rows` high. */
  method LayOut<T>(items: seq<Item<T>>, columns: nat) returns (layout: Layout)
    requires items != [] && columns > 0
    ensures |layout.cells| == |items|
    ensures forall i :: 0 <= i < |items| ==> layout.cells[i] == Place(i, columns, CellWidth(items))
    ensures layout.contentWidth == CellWidth(items) * columns
    ensures layout.contentHeight == Rows(|items|, columns)
    ensures forall i :: 0 <= i < |items| ==> |items[i].text| + 4 <= layout.cells[i].width
    ensures forall i :: 0 <= i < |items| ==>
      0 <= layout.cells[i].x && layout.cells[i].x + layout.cells[i].width <= layout.contentWidth
      && 0 <= layout.cells[i].y < layout.contentHeight
    ensures forall i, j :: 0 <= i < j < |items| ==> layout.cells[i] != layout.cells[j]
  {
    var width := CellWidth(items);
    var rows := Rows(|items|, columns);
    var cells: seq<Cell> := [];
    var i := 0;
    while i < |items|
      invariant 0 <= i <= |items|
      invariant |cells| == i
      invariant forall k :: 0 <= k < i ==> cells[k] == Place(k, columns, width)
    {
      cells := cells + [Cell((i % columns) * width, i / columns, width)];
      i := i + 1;
    }
    layout := Layout(cells, width * columns, rows);
    forall k | 0 <= k < |items|
      ensures 0 <= cells[k].x && cells[k].x + cells[k].width <= width * columns
      ensures 0 <= cells[k].y < rows
    {
      PlaceInBounds(k, |items|, columns, width);
    }
    forall k, l | 0 <= k < l < |items| ensures cells[k] != cells[l] {
      PlaceInjective(k, l, columns, width);
    }
  }

  // ---------------------------------------------------------------------
  // Selection

  /** The values of the items whose box is checked, in item order. */
  function Selection<T>(items: seq<Item<T>>, checked: seq<bool>): (r: seq<T>)
    requires |checked| == |items|
    ensures |r| == CountChecked(checked)
    ensures forall i :: 0 <= i < |items| && checked[i] ==> items[i].data in r
    ensures forall x :: x in r ==> exists i :: 0 <= i < |items| && checked[i] && items[i].data == x
    decreases |items|
  {
    if items == [] then []
    else
      var rest := Selection(items[1..], checked[1..]);
      assert forall i :: 1 <= i < |items| ==> items[i] == items[1..][i - 1] && checked[i] == checked[1..][i - 1];
      if checked[0] then [items[0].data] + rest else rest
  }

  /** The number of checked boxes. */
  function CountChecked(checked: seq<bool>): nat
    decreases |checked|
  {
    if checked == [] then 0 else (if checked[0] then 1 else 0) + CountChecked(checked[1..])
  }

  /** The positions of the checked boxes, in increasing order. */
  ghost function CheckedPositions(checked: seq<bool>, from: nat): (p: seq<nat>)
    requires from <= |checked|
    ensures forall k :: 0 <= k < |p| ==> from <= p[k] < |checked| && checked[p[k]]
    ensures forall k, l :: 0 <= k < l < |p| ==> p[k] < p[l]
    ensures forall i :: from <= i < |checked| && checked[i] ==> i in p
    decreases |checked| - from
  {
    if from == |checked| then []
    else
      var rest := CheckedPositions(checked, from + 1);
      if checked[from] then [from] + rest else rest
  }

  /** The selection is the checked items in their original order: its
      `k`-th element is the item at the `k`-th checked position. */
  lemma {:induction false} SelectionInOrder<T>(items: seq<Item<T>>, checked: seq<bool>, from: nat)
    requires |checked| == |items| && from <= |items|
    ensures var p := CheckedPositions(checked, from);
      var r := Selection(items[from..], checked[from..]);
      |r| == |p| && forall k :: 0 <= k < |p| ==> r[k] == items[p[k]].data
    decreases |items| - from
  {
    if from < |items| {
      SelectionInOrder(items, checked, from + 1);
      var p, q := CheckedPositions(checked, from), CheckedPositions(checked, from + 1);
      var r, s := Selection(items[from..], checked[from..]), Selection(items[from + 1..], checked[from + 1..]);
      assert items[from..][1..] == items[from + 1..];
      assert checked[from..][1..] == checked[from + 1..];
      if checked[from] {
        assert p == [from] + q;
        assert r == [items[from].data] + s;
      } else {
        assert p == q && r == s;
      }
    }
  }

  /** Nothing checked gives the empty selection, everything checked gives
      all the items. */
  lemma SelectionExtremes<T>(items: seq<Item<T>>, checked: seq<bool>)
    requires |checked| == |items|
    ensures (forall i :: 0 <= i < |checked| ==> !checked[i]) ==> Selection(items, checked) == []
    ensures (forall i :: 0 <= i < |checked| ==> checked[i]) ==>
      Selection(items, checked) == seq(|items|, i requires 0 <= i < |items| => items[i].data)
  {
    if forall i :: 0 <= i < |checked| ==> checked[i] {
      SelectionInOrder(items, checked, 0);
      var p := CheckedPositions(checked, 0);
      assert items[0..] == items && checked[0..] == checked;
      AllPositions(checked, 0);
    }
  }

  lemma {:induction false} AllPositions(checked: seq<bool>, from: nat)
    requires from <= |checked|
    requires forall i :: from <= i < |checked| ==> checked[i]
    ensures |CheckedPositions(checked, from)| == |checked| - from
    ensures forall k :: 0 <= k < |checked| - from ==> CheckedPositions(checked, from)[k] == from + k
    decreases |checked| - from
  {
    if from < |checked| {
      AllPositions(checked, from + 1);
      var rest := CheckedPositions(checked, from + 1);
      assert CheckedPositions(checked, from) == [from] + rest;
    }
  }

  /** The selection the grid returns once the user confirms with the boxes
      in state `checked`: the checked items, in order. The window it shows
      is laid out by `LayOut`. */
  method GridSelect<T>(items: seq<Item<T>>, columns: nat, checked: seq<bool>)
    returns (selected: seq<T>)
    requires items != [] && columns > 0
    requires |checked| == |items|
    ensures |selected| == CountChecked(checked)
    ensures selected == Selection(items, checked)
  {
    var layout := LayOut(items, columns);
    selected := [];
    var i := |items|;
    while i > 0
      invariant 0 <= i <= |items|
      invariant selected == Selection(items[i..], checked[i..])
    {
      i := i - 1;
      assert items[i..][1..] == items[i + 1..] && checked[i..][1..] == checked[i + 1..];
      if checked[i] {
        selected := [items[i].data] + selected;
      }
    }
    assert items[0..] == items && checked[0..] == checked;
  }

  // ---------------------------------------------------------------------
  // Arithmetic

  lemma DivisionBounds(n: nat, d: nat)
    requires d > 0
    ensures (n / d) * d <= n < (n / d + 1) * d
  {
  }

  lemma MultiplyMonotone(a: nat, b: nat, c: nat)
    requires a <= b
    ensures a * c <= b * c
  {
  }

  lemma MultiplyLessThan(a: nat, b: nat, c: nat)
    requires a * c < b * c
    ensures a < b
  {
  }

  lemma MultiplyInjective(a: nat, b: nat, c: nat)
    requires c > 0 && a != b
    ensures a * c != b * c
  {
  }

  /** Four items on three columns: two rows, and the fourth item opens the
      second row. */
  lemma FourOnThree()
    ensures Rows(4, 3) == 2
    ensures Place(3, 3, 10) == Cell(0, 1, 10)
    ensures Place(2, 3, 10) == Cell(20, 0, 10)
  {
  }
}

=== FILE: inventory.dfy ===
/** The removal side's list of installed programs (the tail of
    nexmigrate.cs `GetInstalledApps`): registry entries without a usable
    display name are dropped, the rest are de-duplicated by display name
    ignoring case, keeping the first, and sorted by display name ignoring
    case. */
module Inventory {
  import opened Options
  import opened Text
  import opened Distinct
  import opened Sorting
  import opened Sequences

  /** An installed program: the name shown to the user and the command that
      removes it (possibly empty). */
  datatype AppInfo = AppInfo(displayName: string, uninstallString: string)

  /** The two values read from one uninstall registry key; `None` when the
      value is missing or is not a string. */
  datatype RegistryEntry = RegistryEntry(displayName: Option<string>, uninstallString: Option<string>)

  /** The key the list is de-duplicated and sorted by. */
  function DisplayName(a: AppInfo): string {
    a.displayName
  }

  /** An entry is listed when its display name is a non-blank string. */
  predicate IsListed(e: RegistryEntry) {
    e.displayName.Some? && !IsBlank(e.displayName.value)
  }

  /** The program a listed entry describes; a missing uninstall command
      becomes the empty string. */
  function ToApp(e: RegistryEntry): (a: AppInfo)
    requires IsListed(e)
    ensures a.displayName == e.displayName.value
    ensures e.uninstallString.Some? ==> a.uninstallString == e.uninstallString.value
    ensures e.uninstallString.None? ==> a.uninstallString == ""
  {
    AppInfo(e.displayName.value, e.uninstallString.OrElse(""))
  }

  /** The registry scan's filter, over the entries of the three uninstall
      keys in the order they are enumerated. */
  function Candidates(entries: seq<RegistryEntry>): (r: seq<AppInfo>)
    ensures forall a :: a in r ==> !IsBlank(a.displayName)
    ensures forall i :: 0 <= i < |entries| && IsListed(entries[i]) ==> ToApp(entries[i]) in r
    ensures forall a :: a in r ==> exists i :: 0 <= i < |entries| && IsListed(entries[i]) && ToApp(entries[i]) == a
    ensures |r| <= |entries|
  {
    if entries == [] then []
    else
      var rest := Candidates(entries[1..]);
      assert forall i :: 1 <= i < |entries| ==> entries[i] == entries[1..][i - 1];
      if IsListed(entries[0]) then [ToApp(entries[0])] + rest else rest
  }

  /** The filter keeps the enumeration order: filtering a concatenation
      concatenates the filtered parts. */
  lemma {:induction false} CandidatesAppend(a: seq<RegistryEntry>, b: seq<RegistryEntry>)
    ensures Candidates(a + b) == Candidates(a) + Candidates(b)
    decreases |a|
  {
    if a == [] {
      assert a + b == b;
    } else {
      var e, tail := a[0], a[1..];
      ConsSplit(a, b);
      CandidatesAppend(tail, b);
      CandidatesCons(e, tail + b);
      CandidatesCons(e, tail);
      var head := if IsListed(e) then [ToApp(e)] else [];
      ConcatAssociative(head, Candidates(tail), Candidates(b));
    }
  }

  /** Filtering an entry in front of others puts its program, if any, in
      front. */
  lemma CandidatesCons(e: RegistryEntry, rest: seq<RegistryEntry>)
    ensures Candidates([e] + rest) == (if IsListed(e) then [ToApp(e)] else []) + Candidates(rest)
  {
    assert ([e] + rest)[0] == e && ([e] + rest)[1..] == rest;
  }

  /** A single entry yields its program exactly when it is listed. */
  lemma CandidatesSingle(e: RegistryEntry)
    ensures Candidates([e]) == if IsListed(e) then [ToApp(e)] else []
  {
    assert [e][1..] == [];
  }

  /** Every program the filter yields comes from a listed entry, and the
      programs before it are those of the entries before that one. */
  lemma {:induction false} CandidatesIndex(entries: seq<RegistryEntry>, k: nat)
    requires k < |Candidates(entries)|
    ensures exists i ::
      && 0 <= i < |entries| && IsListed(entries[i])
      && Candidates(entries)[k] == ToApp(entries[i])
      && Candidates(entries[..i]) == Candidates(entries)[..k]
    decreases |entries|
  {
    var n := |entries| - 1;
    var init, last := entries[..n], entries[n];
    assert entries == init + [last];
    CandidatesAppend(init, [last]);
    CandidatesSingle(last);
    var c, pre := Candidates(entries), Candidates(init);
    PrefixOfAppend(pre, Candidates([last]), k);
    if k < |pre| {
      CandidatesIndex(init, k);
      var i :| 0 <= i < |init| && IsListed(init[i]) && pre[k] == ToApp(init[i]) && Candidates(init[..i]) == pre[..k];
      assert init[..i] == entries[..i] && init[i] == entries[i];
    } else {
      assert c[..k] == Candidates(entries[..n]);
    }
  }

  /** The entry at `i` is listed and no listed entry before it has the same
      display name, ignoring case. */
  predicate FirstListed(entries: seq<RegistryEntry>, i: nat)
    requires i < |entries|
  {
    && IsListed(entries[i])
    && forall j :: 0 <= j < i && IsListed(entries[j]) ==>
         Fold(entries[j].displayName.value) != Fold(entries[i].displayName.value)
  }

  /** A filtered program is the first of its name exactly when its entry is
      the first listed entry of that name. */
  lemma FirstBridge(entries: seq<RegistryEntry>, i: nat, c: seq<AppInfo>, k: nat)
    requires i < |entries| && IsListed(entries[i])
    requires c == Candidates(entries) && k < |c|
    requires c[k] == ToApp(entries[i]) && c[..k] == Candidates(entries[..i])
    ensures IsFirst(c, DisplayName, k) <==> FirstListed(entries, i)
  {
    var pre := Candidates(entries[..i]);
    var name := Fold(entries[i].displayName.value);
    if Fold(DisplayName(c[k])) in KeysOf(pre, DisplayName) {
      var y :| y in pre && Fold(DisplayName(y)) == name;
      var j :| 0 <= j < |entries[..i]| && IsListed(entries[..i][j]) && ToApp(entries[..i][j]) == y;
      assert entries[..i][j] == entries[j];
    }
    if !FirstListed(entries, i) {
      var j :| 0 <= j < i && IsListed(entries[j]) && Fold(entries[j].displayName.value) == name;
      assert entries[..i][j] == entries[j];
      assert ToApp(entries[j]) in pre;
    }
  }

  /** Grouping by display name ignoring case, keeping the first of each
      group, then ordering by display name ignoring case: one program per
      name, sorted by name. */
  function Normalize(apps: seq<AppInfo>): (r: seq<AppInfo>)
    ensures DistinctKeys(r, DisplayName)
    ensures SortedBy(r, DisplayName)
    ensures multiset(r) == multiset(DistinctBy(apps, DisplayName))
    ensures KeysOf(r, DisplayName) == KeysOf(apps, DisplayName)
    ensures forall a :: a in r ==> a in apps
    ensures forall i :: 0 <= i < |apps| && IsFirst(apps, DisplayName, i) ==> apps[i] in r
  {
    var firsts := DistinctBy(apps, DisplayName);
    var r := SortBy(firsts, DisplayName);
    SortByKeepsDistinct(firsts, DisplayName);
    KeysOfSameMultiset(r, firsts, DisplayName);
    assert forall a :: a in r <==> a in firsts by {
      forall a ensures a in r <==> a in firsts {
        assert a in r <==> a in multiset(r);
        assert a in firsts <==> a in multiset(firsts);
      }
    }
    r
  }

  /** The installed-program list the removal screen offers. */
  function InstalledApps(entries: seq<RegistryEntry>): (r: seq<AppInfo>)
    ensures forall a :: a in r ==> !IsBlank(a.displayName)
    ensures DistinctKeys(r, DisplayName)
    ensures SortedBy(r, DisplayName)
    ensures forall i :: 0 <= i < |entries| && IsListed(entries[i]) ==>
      Fold(entries[i].displayName.value) in KeysOf(r, DisplayName)
    ensures forall i :: 0 <= i < |Candidates(entries)| && IsFirst(Candidates(entries), DisplayName, i) ==>
      Candidates(entries)[i] in r
    ensures forall a :: a in r ==> a in Candidates(entries)
  {
    var c := Candidates(entries);
    var r := Normalize(c);
    forall i | 0 <= i < |entries| && IsListed(entries[i])
      ensures Fold(entries[i].displayName.value) in KeysOf(r, DisplayName)
    {
      assert ToApp(entries[i]) in c;
    }
    r
  }

  /** The normalised list is determined by the programs it keeps: it is the
      only sorted, duplicate-free arrangement of the first occurrences. */
  lemma NormalizeUnique(apps: seq<AppInfo>, other: seq<AppInfo>)
    requires SortedBy(other, DisplayName)
    requires multiset(other) == multiset(DistinctBy(apps, DisplayName))
    ensures other == Normalize(apps)
  {
    SortedUnique(Normalize(apps), other, DisplayName);
  }

  /** Normalising an already normalised list changes nothing. */
  lemma NormalizeIdempotent(apps: seq<AppInfo>)
    ensures Normalize(Normalize(apps)) == Normalize(apps)
  {
    var once := Normalize(apps);
    DistinctByNoDuplicates(once, DisplayName);
    NormalizeUnique(once, once);
  }

  /** The programs listed are exactly those of the first listed registry
      entry of each name, in the order the keys are scanned: the 64-bit
      machine-wide key, then the per-user key, then the 32-bit machine-wide
      key. A name under the 64-bit machine-wide key keeps that command; a
      name found only per user and under the 32-bit machine-wide key keeps
      the per-user command. */
  lemma InstalledAppsFirstEntries(entries: seq<RegistryEntry>)
    ensures forall a :: a in InstalledApps(entries) <==>
      exists i :: 0 <= i < |entries| && FirstListed(entries, i) && ToApp(entries[i]) == a
  {
    forall i | 0 <= i < |entries| && FirstListed(entries, i)
      ensures ToApp(entries[i]) in InstalledApps(entries)
    {
      FirstListedKept(entries, i);
    }
    forall a | a in InstalledApps(entries)
      ensures exists i :: 0 <= i < |entries| && FirstListed(entries, i) && ToApp(entries[i]) == a
    {
      KeptIsFirstListed(entries, a);
    }
  }

  lemma FirstListedKept(entries: seq<RegistryEntry>, i: nat)
    requires i < |entries| && FirstListed(entries, i)
    ensures ToApp(entries[i]) in InstalledApps(entries)
  {
    var e := entries[i];
    var pre, post := Candidates(entries[..i]), Candidates(entries[i + 1..]);
    assert entries == entries[..i] + ([e] + entries[i + 1..]);
    CandidatesAppend(entries[..i], [e] + entries[i + 1..]);
    CandidatesAppend([e], entries[i + 1..]);
    CandidatesSingle(e);
    var c := Candidates(entries);
    var k := |pre|;
    assert c == pre + ([ToApp(e)] + post);
    assert c[k] == ToApp(e) && c[..k] == pre;
    FirstBridge(entries, i, c, k);
  }

  lemma KeptIsFirstListed(entries: seq<RegistryEntry>, a: AppInfo)
    requires a in InstalledApps(entries)
    ensures exists i :: 0 <= i < |entries| && FirstListed(entries, i) && ToApp(entries[i]) == a
  {
    var c := Candidates(entries);
    var firsts := DistinctBy(c, DisplayName);
    assert a in multiset(Normalize(c));
    assert a in firsts;
    FirstOccurrencesOnlyFirst(c, DisplayName, |c|);
    var k :| 0 <= k < |c| && IsFirst(c, DisplayName, k) && c[k] == a;
    CandidatesIndex(entries, k);
    var i :| 0 <= i < |entries| && IsListed(entries[i]) && c[k] == ToApp(entries[i]) && Candidates(entries[..i]) == c[..k];
    FirstBridge(entries, i, c, k);
  }
}

=== FILE: options.dfy ===
/** Optional values: the model of a C# reference that may be null. */
module Options {

  datatype Option<T> = None | Some(value: T) {

    /** The value when there is one, otherwise the fallback. */
    function OrElse(fallback: T): (r: T)
      ensures Some? ==> r == value
      ensures None? ==> r == fallback
    {
      match this
      case Some(v) => v
      case None => fallback
    }
  }
}

=== FILE: sequences.dfy ===
/** Three facts about sequence concatenation and prefixes that the order
    proofs share. */
module Sequences {

  /** A non-empty sequence is its first element followed by the rest. */
  lemma ConsSplit<T>(a: seq<T>, b: seq<T>)
    requires a != []
    ensures a + b == [a[0]] + (a[1..] + b) && a == [a[0]] + a[1..]
  {
  }

  lemma ConcatAssociative<T>(a: seq<T>, b: seq<T>, c: seq<T>)
    ensures a + (b + c) == (a + b) + c
  {
  }

  /** A prefix of a concatenation no longer than the first part is a prefix
      of the first part. */
  lemma PrefixOfAppend<T>(p: seq<T>, q: seq<T>, k: nat)
    requires k <= |p|
    ensures (p + q)[..k] == p[..k] && (k < |p| ==> (p + q)[k] == p[k])
    ensures k == |p| ==> (p + q)[..k] == p
  {
  }
}

=== FILE: sorting.dfy ===
/** Ordering by a key compared ordinally ignoring case, modelled as an
    insertion sort. The tool sorts only lists without repeated keys, and for
    those a sorted permutation is unique (`SortedUnique`), so the stability
    of the library sort is not stated here. */
module Sorting {
  import opened Text
  import opened Distinct

  /** Keys never decrease along `xs`. */
  ghost predicate SortedBy<T>(xs: seq<T>, key: T -> string) {
    forall i, j :: 0 <= i < j < |xs| ==> LessOrEqualIgnoreCase(key(xs[i]), key(xs[j]))
  }

  /** Places `x` after every element of the sorted `s` whose key is not
      greater than its own. */
  function Insert<T>(x: T, s: seq<T>, key: T -> string): (r: seq<T>)
    requires SortedBy(s, key)
    ensures SortedBy(r, key)
    ensures multiset(r) == multiset(s) + multiset{x}
    ensures r[0] == x || (s != [] && r[0] == s[0])
    decreases |s|
  {
    if s == [] then [x]
    else if LessOrEqualIgnoreCase(key(s[0]), key(x)) then
      var t := Insert(x, s[1..], key);
      SortedCons(s[0], t, key);
      assert s == [s[0]] + s[1..];
      [s[0]] + t
    else
      LexLeTotal(Fold(key(s[0])), Fold(key(x)));
      SortedCons(x, s, key);
      [x] + s
  }

  /** Sorts by case-insensitive key. */
  function SortBy<T>(xs: seq<T>, key: T -> string): (r: seq<T>)
    ensures SortedBy(r, key)
    ensures multiset(r) == multiset(xs)
    decreases |xs|
  {
    if xs == [] then []
    else
      var init := xs[..|xs| - 1];
      assert xs == init + [xs[|xs| - 1]];
      Insert(xs[|xs| - 1], SortBy(init, key), key)
  }

  // ---------------------------------------------------------------------
  // Proofs

  lemma SortedCons<T>(a: T, t: seq<T>, key: T -> string)
    requires SortedBy(t, key)
    requires t != [] ==> LessOrEqualIgnoreCase(key(a), key(t[0]))
    ensures SortedBy([a] + t, key)
  {
    forall j | 0 < j < |t|
      ensures LessOrEqualIgnoreCase(key(a), key(t[j]))
    {
      LexLeTransitive(Fold(key(a)), Fold(key(t[0])), Fold(key(t[j])));
    }
  }

  lemma KeysOfSameMultiset<T>(a: seq<T>, b: seq<T>, key: T -> string)
    requires multiset(a) == multiset(b)
    ensures KeysOf(a, key) == KeysOf(b, key)
  {
    forall y ensures y in a <==> y in b {
      assert y in a <==> y in multiset(a);
      assert y in b <==> y in multiset(b);
    }
  }

  /** A sequence is duplicate-free when its head's key is not in its tail
      and its tail is duplicate-free. */
  lemma DistinctCons<T>(a: T, t: seq<T>, key: T -> string)
    ensures DistinctKeys([a] + t, key) <==> Fold(key(a)) !in KeysOf(t, key) && DistinctKeys(t, key)
  {
    var s := [a] + t;
    assert s[1..] == t;
    if DistinctKeys(s, key) {
      forall y | y in t ensures Fold(key(y)) != Fold(key(a)) {
        var j :| 0 <= j < |t| && t[j] == y;
        assert s[j + 1] == y && s[0] == a;
        assert Fold(key(s[0])) != Fold(key(s[j + 1]));
      }
      forall i, j | 0 <= i < j < |t| ensures Fold(key(t[i])) != Fold(key(t[j])) {
        assert s[i + 1] == t[i] && s[j + 1] == t[j];
      }
    }
    if Fold(key(a)) !in KeysOf(t, key) && DistinctKeys(t, key) {
      forall i, j | 0 <= i < j < |s| ensures Fold(key(s[i])) != Fold(key(s[j])) {
        assert s[j] == t[j - 1] && s[j] in t;
        if i > 0 {
          assert s[i] == t[i - 1];
        }
      }
    }
  }

  /** Inserting an element with a new key into a duplicate-free sequence
      keeps it duplicate-free. */
  lemma {:induction false} InsertKeepsDistinct<T>(x: T, s: seq<T>, key: T -> string)
    requires SortedBy(s, key)
    requires DistinctKeys(s, key) && Fold(key(x)) !in KeysOf(s, key)
    ensures DistinctKeys(Insert(x, s, key), key)
    decreases |s|
  {
    if s == [] {
    } else if LessOrEqualIgnoreCase(key(s[0]), key(x)) {
      InsertTailFacts(x, s, key);
      InsertKeepsDistinct(x, s[1..], key);
      InsertHeadDistinct(x, s, Insert(x, s[1..], key), key);
    } else {
      DistinctCons(x, s, key);
    }
  }

  /** The tail of `s` meets the requirements `s` meets. */
  lemma InsertTailFacts<T>(x: T, s: seq<T>, key: T -> string)
    requires s != [] && SortedBy(s, key)
    requires DistinctKeys(s, key) && Fold(key(x)) !in KeysOf(s, key)
    ensures SortedBy(s[1..], key)
    ensures DistinctKeys(s[1..], key) && Fold(key(x)) !in KeysOf(s[1..], key)
  {
    assert s == [s[0]] + s[1..];
    DistinctCons(s[0], s[1..], key);
    KeysOfAppend([s[0]], s[1..], key);
  }

  /** Putting the head of `s` back in front of the insertion into its tail
      keeps the keys distinct. */
  lemma InsertHeadDistinct<T>(x: T, s: seq<T>, t: seq<T>, key: T -> string)
    requires s != []
    requires DistinctKeys(s, key) && Fold(key(x)) !in KeysOf(s, key)
    requires multiset(t) == multiset(s[1..]) + multiset{x}
    requires DistinctKeys(t, key)
    ensures DistinctKeys([s[0]] + t, key)
  {
    assert s == [s[0]] + s[1..];
    DistinctCons(s[0], s[1..], key);
    KeysOfSameMultiset(t, s[1..] + [x], key);
    KeysOfAppend(s[1..], [x], key);
    assert Fold(key(s[0])) in KeysOf(s, key);
    DistinctCons(s[0], t, key);
  }

  /** Sorting a duplicate-free sequence yields a duplicate-free sequence. */
  lemma {:induction false} SortByKeepsDistinct<T>(xs: seq<T>, key: T -> string)
    requires DistinctKeys(xs, key)
    ensures DistinctKeys(SortBy(xs, key), key)
    decreases |xs|
  {
    if xs != [] {
      var init := xs[..|xs| - 1];
      var last := xs[|xs| - 1];
      assert DistinctKeys(init, key);
      SortByKeepsDistinct(init, key);
      KeysOfSameMultiset(SortBy(init, key), init, key);
      forall y | y in init ensures Fold(key(y)) != Fold(key(last)) {
        var i :| 0 <= i < |init| && init[i] == y;
        assert xs[i] == y;
      }
      InsertKeepsDistinct(last, SortBy(init, key), key);
    }
  }

  /** Sorting determines a duplicate-free sequence: two sorted arrangements
      of the same elements are equal. */
  lemma {:induction false} SortedUnique<T>(a: seq<T>, b: seq<T>, key: T -> string)
    requires SortedBy(a, key) && SortedBy(b, key)
    requires DistinctKeys(a, key)
    requires multiset(a) == multiset(b)
    ensures a == b
    decreases |a|
  {
    if a == [] {
      assert |multiset(b)| == 0;
    } else {
      assert |b| == |multiset(b)| == |multiset(a)| == |a|;
      SortedHeadsEqual(a, b, key);
      TailsSameMultiset(a, b);
      assert DistinctKeys(a[1..], key);
      SortedUnique(a[1..], b[1..], key);
      assert a == [a[0]] + a[1..] && b == [b[0]] + b[1..];
    }
  }

  lemma SortedHeadsEqual<T>(a: seq<T>, b: seq<T>, key: T -> string)
    requires a != [] && b != []
    requires SortedBy(a, key) && SortedBy(b, key)
    requires DistinctKeys(a, key)
    requires multiset(a) == multiset(b)
    ensures a[0] == b[0]
  {
    assert a[0] in multiset(b) && b[0] in multiset(a);
    var j :| 0 <= j < |b| && b[j] == a[0];
    var i :| 0 <= i < |a| && a[i] == b[0];
    var ka, kb := Fold(key(a[0])), Fold(key(b[0]));
    if i != 0 && j != 0 {
      assert LexLe(ka, kb);
      assert LexLe(kb, ka);
      LexLeAntisymmetric(ka, kb);
    }
    assert ka == kb;
    assert i == 0;
  }

  lemma TailsSameMultiset<T>(a: seq<T>, b: seq<T>)
    requires a != [] && b != [] && a[0] == b[0]
    requires multiset(a) == multiset(b)
    ensures multiset(a[1..]) == multiset(b[1..])
  {
    assert a == [a[0]] + a[1..] && b == [b[0]] + b[1..];
    assert multiset(a[1..]) == multiset(a) - multiset{a[0]};
    assert multiset(b[1..]) == multiset(b) - multiset{a[0]};
  }

  /** The sort leaves an already sorted duplicate-free sequence unchanged. */
  lemma SortBySorted<T>(xs: seq<T>, key: T -> string)
    requires SortedBy(xs, key) && DistinctKeys(xs, key)
    ensures SortBy(xs, key) == xs
  {
    SortedUnique(xs, SortBy(xs, key), key);
  }
}

=== FILE: text.dfy ===
/** The string primitives of the .NET base library that the tool relies on,
    over `string` (= `seq<char>`): white space, `Trim`, `IndexOf`, ordinal
    `Contains` and `Replace`, and the `OrdinalIgnoreCase` comparer with case
    folding restricted to ASCII letters. */
module Text {

  /** The .NET white-space test: the Unicode space, line and paragraph separators
      plus the control characters TAB..CR and NEL. */
  predicate IsWhiteSpace(c: char) {
    || c == ' '
    || ('\t' <= c <= '\r')
    || c == '\U{0085}'
    || c == '\U{00A0}'
    || c == '\U{1680}'
    || ('\U{2000}' <= c <= '\U{200A}')
    || c == '\U{2028}'
    || c == '\U{2029}'
    || c == '\U{202F}'
    || c == '\U{205F}'
    || c == '\U{3000}'
  }

  /** A non-null string that is empty or consists only of white space. */
  predicate IsBlank(s: string) {
    forall i :: 0 <= i < |s| ==> IsWhiteSpace(s[i])
  }

  // ---------------------------------------------------------------------
  // Trim

  /** Trimming drops the white space at both ends. The result is empty
      exactly for a blank string, and otherwise begins and ends with a
      character that is not white space. */
  function Trim(s: string): (r: string)
    ensures r == [] <==> IsBlank(s)
    ensures r != [] ==> !IsWhiteSpace(r[0]) && !IsWhiteSpace(r[|r| - 1])
    ensures |r| <= |s|
    decreases |s|
  {
    if s == [] then s
    else if IsWhiteSpace(s[0]) then Trim(s[1..])
    else if IsWhiteSpace(s[|s| - 1]) then Trim(s[..|s| - 1])
    else s
  }

  /** `t` is the part of `s` that starts at `a`, and only white space
      surrounds it. */
  ghost predicate IsCore(s: string, t: string, a: nat) {
    && a + |t| <= |s|
    && t == s[a..a + |t|]
    && (forall i :: 0 <= i < a ==> IsWhiteSpace(s[i]))
    && (forall i :: a + |t| <= i < |s| ==> IsWhiteSpace(s[i]))
  }

  /** Trimming keeps a contiguous part of `s` and drops only white space
      around it. */
  lemma {:induction false} TrimSpan(s: string) returns (a: nat)
    ensures IsCore(s, Trim(s), a)
    decreases |s|
  {
    var t := Trim(s);
    if s == [] {
      a := 0;
    } else if IsWhiteSpace(s[0]) {
      assert t == Trim(s[1..]);
      var b := TrimSpan(s[1..]);
      a := b + 1;
      CoreAfterWhiteSpace(s, t, b);
    } else if IsWhiteSpace(s[|s| - 1]) {
      assert t == Trim(s[..|s| - 1]);
      a := TrimSpan(s[..|s| - 1]);
      CoreBeforeWhiteSpace(s, t, a);
    } else {
      a := 0;
    }
  }

  lemma CoreAfterWhiteSpace(s: string, t: string, b: nat)
    requires s != [] && IsWhiteSpace(s[0]) && IsCore(s[1..], t, b)
    ensures IsCore(s, t, b + 1)
  {
    assert s[1..][b..b + |t|] == s[b + 1..b + 1 + |t|];
  }

  lemma CoreBeforeWhiteSpace(s: string, t: string, a: nat)
    requires s != [] && IsWhiteSpace(s[|s| - 1]) && IsCore(s[..|s| - 1], t, a)
    ensures IsCore(s, t, a)
  {
    assert s[..|s| - 1][a..a + |t|] == s[a..a + |t|];
  }

  /** Trimming leaves a string alone when it has no white space at either end. */
  lemma TrimUnchanged(s: string)
    requires s == [] || (!IsWhiteSpace(s[0]) && !IsWhiteSpace(s[|s| - 1]))
    ensures Trim(s) == s
  {
  }

  /** Leading white space does not change the trimmed string. */
  lemma TrimAfterWhiteSpace(c: char, s: string)
    requires IsWhiteSpace(c)
    ensures Trim([c] + s) == Trim(s)
  {
    assert ([c] + s)[1..] == s;
  }

  /** Trimming is idempotent. */
  lemma TrimIdempotent(s: string)
    ensures Trim(Trim(s)) == Trim(s)
  {
    TrimUnchanged(Trim(s));
  }

  // ---------------------------------------------------------------------
  // Searching

  /** Character search from a start position: the first position at or after `from` holding
      `c`, or -1 when there is none. */
  function IndexOf(s: string, c: char, from: nat): (r: int)
    ensures r == -1 || (from <= r < |s| && s[r] == c)
    ensures r == -1 ==> forall i :: from <= i < |s| ==> s[i] != c
    ensures r != -1 ==> forall i :: from <= i < r ==> s[i] != c
    decreases |s| - from
  {
    if from >= |s| then -1
    else if s[from] == c then from
    else IndexOf(s, c, from + 1)
  }

  /** `p` occurs in `s` starting at position `i`. */
  predicate OccursAt(s: string, p: string, i: int) {
    0 <= i && i + |p| <= |s| && s[i..i + |p|] == p
  }

  /** `p` occurs in `s`, compared ordinally. */
  predicate Contains(s: string, p: string) {
    exists i :: 0 <= i <= |s| - |p| && OccursAt(s, p, i)
  }

  /** An occurrence in a suffix is an occurrence in the whole string. */
  lemma ContainsInSuffix(s: string, p: string, k: nat)
    requires k <= |s| && Contains(s[k..], p)
    ensures Contains(s, p)
  {
    var i :| 0 <= i <= |s[k..]| - |p| && OccursAt(s[k..], p, i);
    assert s[k..][i..i + |p|] == s[k + i..k + i + |p|];
    assert OccursAt(s, p, k + i);
  }

  /** Ordinal replacement: every occurrence of `pat`, found left to right
      without overlap, is replaced by `rep`. */
  function Replace(s: string, pat: string, rep: string): (r: string)
    requires pat != []
    ensures !Contains(s, pat) ==> r == s
    decreases |s|
  {
    if |s| < |pat| then s
    else if s[..|pat|] == pat then
      assert OccursAt(s, pat, 0);
      rep + Replace(s[|pat|..], pat, rep)
    else
      assert Contains(s[1..], pat) ==> Contains(s, pat) by {
        if Contains(s[1..], pat) {
          ContainsInSuffix(s, pat, 1);
        }
      }
      [s[0]] + Replace(s[1..], pat, rep)
  }

  // ---------------------------------------------------------------------
  // OrdinalIgnoreCase

  /** Upper-case mapping of a character; only ASCII letters change. */
  function ToUpper(c: char): char {
    if 'a' <= c <= 'z' then (c as int - 32) as char else c
  }

  /** The string the `OrdinalIgnoreCase` comparer compares. */
  function Fold(s: string): (r: string)
    ensures |r| == |s|
    ensures forall i :: 0 <= i < |s| ==> r[i] == ToUpper(s[i])
    decreases |s|
  {
    if s == [] then [] else [ToUpper(s[0])] + Fold(s[1..])
  }

  /** `a` and `b` are equal, compared ordinally ignoring case. */
  predicate EqualsIgnoreCase(a: string, b: string) {
    Fold(a) == Fold(b)
  }

  /** `p` occurs in `s`, compared ordinally ignoring case. */
  predicate ContainsIgnoreCase(s: string, p: string) {
    Contains(Fold(s), Fold(p))
  }

  /** Ordinal lexicographic order: character codes compared left to right,
      and a proper prefix comes first. */
  predicate LexLe(a: string, b: string)
    decreases |a|
  {
    a == [] || (b != [] && (a[0] < b[0] || (a[0] == b[0] && LexLe(a[1..], b[1..]))))
  }

  lemma {:induction false} LexLeTotal(a: string, b: string)
    ensures LexLe(a, b) || LexLe(b, a)
    decreases |a|
  {
    if a != [] && b != [] && a[0] == b[0] {
      LexLeTotal(a[1..], b[1..]);
    }
  }

  lemma {:induction false} LexLeTransitive(a: string, b: string, c: string)
    requires LexLe(a, b) && LexLe(b, c)
    ensures LexLe(a, c)
    decreases |a|
  {
    if a != [] && a[0] == b[0] && b[0] == c[0] {
      LexLeTransitive(a[1..], b[1..], c[1..]);
    }
  }

  lemma {:induction false} LexLeAntisymmetric(a: string, b: string)
    requires LexLe(a, b) && LexLe(b, a)
    ensures a == b
    decreases |a|
  {
    if a != [] {
      LexLeAntisymmetric(a[1..], b[1..]);
      assert a == [a[0]] + a[1..];
      assert b == [b[0]] + b[1..];
    }
  }

  /** `a` comes no later than `b` when compared ordinally ignoring case. */
  predicate LessOrEqualIgnoreCase(a: string, b: string) {
    LexLe(Fold(a), Fold(b))
  }
}
